=== FILE: README.md ===
# Account store and transfer service, modelled in Dafny

This project models the core of a small Java money-transfer service. It covers:

- the in-memory account store `AccountCache`;
- the account value logic in `Account`: balance, last transaction id, appending a transaction, copying;
- the service operations in `AccountServiceImpl` that build on them: opening an account, reading one, and transferring money between two accounts.

The store is a state machine. Its state is a `Store`: a map from account number to `Account`, an account-number counter and a transaction-id counter. Each store operation is one atomic step. It takes a store and returns the new store together with a `Result`: either `Ok(value)` or `Err(error)`.

The errors are:

- `NotFound`: an unknown account;
- `Conflict`: the optimistic check refused a stale copy;
- `InvalidArgument`: a non-positive opening deposit;
- `InsufficientFunds`: the payer's funds do not cover the amount.

Files, one module each:

- `ledger.dfy` (`Ledger`): entries and accounts; the current balance, the last transaction id, appending a transaction, the field-by-field copy; the balance chain invariant (`Consistent`).
- `ids.dfy` (`TransactionIds`): stamping the trailing run of unstamped entries with fresh ids. This is the two-loop `setTransactionIds` and its functional reference `AssignIds`.
- `store.dfy` (`AccountStore`): create, get, the optimistic single update with rollback, the backward anchor scan, and the dual update.
- `store_properties.dfy` (`StoreProperties`): properties that relate store operations. They cover reading back what was created, when updates are accepted, lost-update rejection, validity preservation, and all-or-nothing pair updates.
- `service.dfy` (`AccountService`): `createAccount`, `getAccount`, `transfer`, and the corrected `TransferChecked`.
- `service_properties.dfy` (`ServiceProperties`): properties of transfers. They cover the exact store a transfer leaves, conservation, the overdraft bound, the id order, failure cases, and that every store the service builds stays well formed.
- `scenarios.dfy` (`Scenarios`): the repository's own tests, stated of the model on the accounts those tests build. It also holds a sequential form of the concurrent transfer test.

Money is `int`, because `BigDecimal` arithmetic is exact. Entry ids and account numbers are `Option<int>` and the map is keyed by `int`; both are drawn from the two store counters, which are unbounded naturals (`nat`).

Calling preconditions are written as `requires`. They cover the cases where the Java update can throw a null dereference or an index error, and one case it accepts that the model deliberately excludes:

- an update of a candidate with no number (a null dereference when the update synchronizes on the number, AccountCache.java:44);
- an update of a number that is not stored (a null dereference);
- an update of a stored account with no entries (an index error);
- a candidate with an unstamped entry before a stamped one. The Java code dereferences the missing id only when its backward scan reaches that entry before finding the anchor; when the anchor sits after it, the Java update accepts the candidate. The model excludes both outcomes (see "Left out").

In the model, `Submittable` collects these. `Serviceable` says that the accounts a transfer reads are ones the store can update. `Healthy` says what holds of every store the service builds from the reset store. It implies `Serviceable` for every number (`ServiceProperties.HealthyServiceable`), and so `Submittable` for the debited or credited copy a transfer builds from a stored account; it says nothing about other candidates.

## Model

| member | source | states |
|---|---|---|
| Ledger.CurrentBalance | interview/src/main/java/com/revolut/interview/Account.java:47-52 | An account with no entries has balance 0. Its partner `Ledger.BalanceIsSignedSum` shows that on a consistent account the balance is the sum of the signed amounts of all entries. |
| Ledger.NewAccount | interview/src/main/java/com/revolut/interview/Account.java:10-13 | A bare account has no number, no name, overdraft limit 0, no entries, and current balance 0. |
| Ledger.LastTransactionId | interview/src/main/java/com/revolut/interview/Account.java:54-60 | Defined only for a non-empty entry list. The id it returns is carried by one of the entries, and it is present when every entry is stamped. |
| Ledger.AddTransaction | interview/src/main/java/com/revolut/interview/Account.java:66-75 | Appends exactly one unstamped entry of the given kind and amount. Earlier entries and the account fields are unchanged. The current balance moves up by the amount for a credit and down for a debit. |
| Ledger.AddEntry | interview/src/main/java/com/revolut/interview/Account.java:62-64 | Appends the given entry unchanged. The old entries are a prefix of the result, and the current balance becomes the entry's balance. |
| Ledger.CopyOf | interview/src/main/java/com/revolut/interview/Account.java:81-87 | The copy, built field by field, equals the original account: same number, name, overdraft limit and entries in the same order. Entry sharing between the Java copies is not modelled (see "Left out"). |
| Ledger.AddEntryKeepsConsistent | interview/src/main/java/com/revolut/interview/Account.java:62-64 | Appending an entry whose balance is the current balance moved by its amount keeps every entry's balance equal to the previous balance moved by its own amount. |
| Ledger.AddTransactionKeepsConsistent | interview/src/main/java/com/revolut/interview/Account.java:66-75 | Appending a transaction keeps the balance chain intact. |
| Ledger.BalanceIsSignedSum | interview/src/main/java/com/revolut/interview/Account.java:47-52 | On a consistent account, the current balance (0 when there are no entries, else the last entry's balance) equals the sum of the signed amounts of all entries. |
| TransactionIds.TrailingRun | interview/src/main/java/com/revolut/interview/AccountCache.java:63-71 | The count of unstamped entries at the end is at most the length, covers only unstamped entries, and stops at a stamped one. |
| TransactionIds.AssignIds | interview/src/main/java/com/revolut/interview/AccountCache.java:61-75 | Stamping keeps the length and every kind, amount and balance. It leaves entries before the trailing run untouched, and gives the run counter+1, counter+2, … from oldest to newest. |
| TransactionIds.SetTransactionIds | interview/src/main/java/com/revolut/interview/AccountCache.java:61-75 | The two loops (count the unstamped run backwards, then stamp it forwards while advancing the counter) compute exactly `AssignIds`, and advance the counter by the run's length. |
| TransactionIds.AssignedIdsFresh | interview/src/main/java/com/revolut/interview/AccountCache.java:72-74 | The ids stamped in one call are above the old counter, strictly increasing, and at most the advanced counter. |
| TransactionIds.AssignIdsIdentifies | interview/src/main/java/com/revolut/interview/AccountCache.java:61-75 | When unstamped entries occur only at the end, every entry has an id after stamping. |
| TransactionIds.AssignIdsIssued | interview/src/main/java/com/revolut/interview/AccountCache.java:61-75 | If the stamped part holds issued, increasing ids, then the whole list does afterwards, up to the advanced counter. |
| TransactionIds.AssignIdsIdempotent | interview/src/main/java/com/revolut/interview/AccountCache.java:64-71 | After stamping nothing is left to stamp, so stamping again changes nothing. |
| TransactionIds.AssignIdsKeepsConsistent | interview/src/main/java/com/revolut/interview/AccountCache.java:73 | Stamping changes ids only, so the balance chain is preserved. |
| TransactionIds.StampingKeepsBalance | interview/src/main/java/com/revolut/interview/AccountCache.java:73 | Stamping leaves the current balance and the overdraft limit as they were. |
| TransactionIds.TrailingRunOfAppended | interview/src/main/java/com/revolut/interview/Account.java:66-75 | Unstamped entries appended to a fully stamped list are exactly the trailing run, and the list is well formed. |
| TransactionIds.AddTransactionLeavesOneToStamp | interview/src/main/java/com/revolut/interview/Account.java:66-75 | After one transaction is appended to a fully stamped account, exactly one entry remains to stamp and the old entries are unchanged. |
| AccountStore.Initial | interview/src/main/java/com/revolut/interview/AccountCache.java:20-24 | The reset store has no accounts and is valid. |
| AccountStore.Create | interview/src/main/java/com/revolut/interview/AccountCache.java:27-33 | Ignores the candidate's number and allocates counter + 1. Stamps the trailing run, stores the result under the new number without touching other numbers, returns what it stored, and advances the id counter by the run's length. |
| AccountStore.Get | interview/src/main/java/com/revolut/interview/AccountCache.java:78-82 | Returns the stored account exactly when the number is present, and NotFound otherwise. |
| AccountStore.Update | interview/src/main/java/com/revolut/interview/AccountCache.java:42-59 | Succeeds exactly when the stamped candidate carries the stored account's last id. On success it stores and returns the stamped candidate. On failure it returns Conflict with the map as before. In both cases the id counter advances by the number of ids stamped. |
| AccountStore.FindAnchor | interview/src/main/java/com/revolut/interview/AccountCache.java:49-53 | The backward scan finds the anchor id exactly when some entry carries it. |
| AccountStore.Lower | interview/src/main/java/com/revolut/interview/AccountCache.java:93-100 | The first leg is one of the two candidates and has the lower number; unless the left number is larger, it is the left one, so a tie goes to the left. |
| AccountStore.Higher | interview/src/main/java/com/revolut/interview/AccountCache.java:93-100 | The second leg is one of the two candidates and has the higher number; unless the left number is larger, it is the right one, so a tie goes to the right. |
| AccountStore.LegOrderIgnoresSides | interview/src/main/java/com/revolut/interview/AccountCache.java:93-100 | For two different numbers, the processing order does not depend on which side each account was passed on. |
| AccountStore.UpdateInOrder | interview/src/main/java/com/revolut/interview/AccountCache.java:104-116 | The first leg is updated, then the second. On any failure the result is Conflict and the map is as before, because a failed second leg rolls the first back. The ids stamped stay consumed: only the first leg's when it conflicts, both legs' otherwise. On success both stamped legs are stored, the second stamped after the first. |
| AccountStore.UpdatePair | interview/src/main/java/com/revolut/interview/AccountCache.java:90-120 | Lower number first. All or nothing on Conflict: on failure the map is as before, and the ids already stamped stay consumed (the first leg's, and the second's once the first was accepted). On success both legs are stored and the results come back in the caller's left/right order, each under its own number. |
| StoreProperties.ValidAnchorIssued | interview/src/main/java/com/revolut/interview/AccountCache.java:48 | In a valid store, the last id of a stored account with entries is present and already issued. |
| StoreProperties.NewestStampedId | interview/src/main/java/com/revolut/interview/AccountCache.java:72-74 | When k > 0 entries are stamped, the newest id afterwards is counter + k. |
| StoreProperties.CreateThenGet | interview/src/main/java/com/revolut/interview/AccountCache.java:27-33 | In a valid store, for a candidate whose stamped entries hold issued ids and whose unstamped entries all sit at the end: reading back a created account returns what create returned. The number was free, no other account changes, the new ids are issued, and the store stays valid. |
| StoreProperties.UpdateAcceptsIff | interview/src/main/java/com/revolut/interview/AccountCache.java:45-53 | When the stored account's last id is issued, the update succeeds exactly when the caller's copy already carried that id. Freshly stamped ids can never match it. |
| StoreProperties.UpdatePreservesValid | interview/src/main/java/com/revolut/interview/AccountCache.java:42-59 | In a valid store, an update of a candidate whose stamped ids are issued keeps the store valid, whether it succeeds or conflicts. |
| StoreProperties.AppendAccepted | interview/src/main/java/com/revolut/interview/AccountCache.java:42-53 | In a valid store, a copy of a stored account that has entries, with at least one new unstamped entry appended, is accepted. The stored account keeps its old entries, gains the new ones, and its newest id is the last id handed out. |
| StoreProperties.StaleRejected | interview/src/main/java/com/revolut/interview/AccountCache.java:49-58 | When the stored account's newest id has been issued, a copy whose stamped ids are all older than it is rejected with Conflict and the map is unchanged. |
| StoreProperties.LostUpdateRejected | interview/src/main/java/com/revolut/interview/AccountCache.java:35-59 | In a valid store, two copies are read from the same state and each appends entries. The first to submit, having appended at least one entry, wins. The second gets Conflict, and the winner's version stays stored with exactly the winner's entries added. |
| StoreProperties.UpdatePairAcceptsIff | interview/src/main/java/com/revolut/interview/AccountCache.java:104-116 | In a valid store, for two different accounts, the pair update succeeds exactly when each copy carries the last id of its stored account. |
| StoreProperties.ValidUnderCounterAdvance | interview/src/main/java/com/revolut/interview/AccountCache.java:45 | Consuming ids or numbers without changing the map keeps a store valid. This is the case of a failed update. |
| StoreProperties.UpdateTwicePreservesValid | interview/src/main/java/com/revolut/interview/AccountCache.java:107-110 | Two updates in a row of candidates with issued ids keep a valid store valid, whether the first succeeds or conflicts. |
| StoreProperties.UpdatePairPreservesValid | interview/src/main/java/com/revolut/interview/AccountCache.java:90-120 | In a valid store, a pair update of candidates whose stamped ids are issued keeps the store valid, whether it succeeds or rolls back. |
| StoreProperties.PairWritesAscending | interview/src/main/java/com/revolut/interview/AccountCache.java:98-110 | When a pair update of two legs given in ascending order, each with one entry to stamp, succeeds, the lower one takes the next id, the higher one the id after it, and the counter moves on by two. |
| StoreProperties.PairWritesDescending | interview/src/main/java/com/revolut/interview/AccountCache.java:93-110 | When the same legs are given in descending order and the pair update succeeds, they are processed and stamped in the same order, leaving the same store. |
| AccountService.Opening | interview/src/main/java/com/revolut/interview/AccountServiceImpl.java:18-29 | The account handed to create has the requested name and overdraft limit and no number. It has one unstamped credit whose amount and balance are the deposit, or no entry when the deposit is zero. |
| AccountService.CreateAccount | interview/src/main/java/com/revolut/interview/AccountServiceImpl.java:16-31 | A deposit of zero or less gives InvalidArgument and the store is untouched. Otherwise the account is stored under the next number with one credit of the deposit, stamped with the next id. |
| AccountService.GetAccount | interview/src/main/java/com/revolut/interview/AccountServiceImpl.java:34-36 | Returns the stored account when the number is present, and NotFound otherwise. |
| AccountService.Transfer | interview/src/main/java/com/revolut/interview/AccountServiceImpl.java:39-56 | Error precedence: an unknown payer gives NotFound first; then funds that do not cover the amount give InsufficientFunds (the bound is inclusive); then an unknown payee gives NotFound. Every failure leaves the map unchanged. |
| AccountService.TransferChecked | interview/src/main/java/com/revolut/interview/AccountServiceImpl.java:39-56 | The corrected transfer refuses a non-positive amount with InvalidArgument and otherwise behaves as the transfer. |
| ServiceProperties.StampedPosting | interview/src/main/java/com/revolut/interview/AccountServiceImpl.java:51-52 | Appending a transaction to a fully stamped account and stamping it from a counter posts exactly that transaction, with id counter + 1. |
| ServiceProperties.PostedKeepsConsistent | interview/src/main/java/com/revolut/interview/AccountServiceImpl.java:51-52 | A posted transaction keeps the balance chain intact. |
| ServiceProperties.PostedIssued | interview/src/main/java/com/revolut/interview/AccountServiceImpl.java:51-54 | A posted transaction keeps ids issued and increasing, once the counter has passed its id. |
| ServiceProperties.TransferSubmits | interview/src/main/java/com/revolut/interview/AccountServiceImpl.java:51-54 | A successful transfer submitted the debited payer and the credited payee, each with exactly one entry to stamp. |
| ServiceProperties.PostingsStamp | interview/src/main/java/com/revolut/interview/AccountServiceImpl.java:51-54 | Stamping the debited payer and the credited payee from given counters posts the debit and the credit. |
| ServiceProperties.StampedPairAscending | interview/src/main/java/com/revolut/interview/AccountCache.java:98-110 | When the payer has the lower number, stamping the pair in processing order gives the payer the next id and the payee the one after. |
| ServiceProperties.StampedPairDescending | interview/src/main/java/com/revolut/interview/AccountCache.java:93-110 | When the payer has the higher number, the payee is stamped first and the payer second. |
| ServiceProperties.TransferWritesAscending | interview/src/main/java/com/revolut/interview/AccountServiceImpl.java:51-54 | A successful transfer to a higher-numbered account leaves exactly the posted store. |
| ServiceProperties.TransferWritesDescending | interview/src/main/java/com/revolut/interview/AccountServiceImpl.java:51-54 | A successful transfer to a lower-numbered account leaves exactly the posted store. |
| ServiceProperties.TransferWrites | interview/src/main/java/com/revolut/interview/AccountServiceImpl.java:51-54 | A successful transfer between two different accounts leaves exactly the posted store, whichever way round the numbers are. |
| ServiceProperties.TwoPostings | interview/src/main/java/com/revolut/interview/AccountServiceImpl.java:51-52 | Writing the posted debit and the posted credit, in either order, moves the amount from payer to payee, changes nothing else, and each new entry carries its stamped id. |
| ServiceProperties.TransferredMovesAmount | interview/src/main/java/com/revolut/interview/AccountServiceImpl.java:51-54 | The posted store moves the amount, and the lower-numbered account's entry has the earlier id. |
| ServiceProperties.TransferMovesAmount | interview/src/main/java/com/revolut/interview/AccountServiceImpl.java:42-54 | For two distinct accounts, a successful transfer conserves the sum of the two balances, debits and credits exactly the amount, keeps both overdraft limits and every other account, and leaves the payer at or above minus its overdraft limit. |
| ServiceProperties.TransferPosts | interview/src/main/java/com/revolut/interview/AccountServiceImpl.java:51-54 | A successful transfer posts exactly one entry on each account: a debit on the payer and a credit on the payee, each with the id its processing position gives it. |
| ServiceProperties.TransferIdsLowerFirst | interview/src/main/java/com/revolut/interview/AccountServiceImpl.java:54 | A successful transfer consumes two ids. The lower-numbered account's new entry has the first and the other account's the second. |
| ServiceProperties.TransferIsPairOutcome | interview/src/main/java/com/revolut/interview/AccountServiceImpl.java:40-54 | A transfer that passes its own checks ends exactly as the pair update of the debited payer and the credited payee. |
| ServiceProperties.PostingsAccepted | interview/src/main/java/com/revolut/interview/AccountServiceImpl.java:51-54 | In a valid store, a debit and a credit built from the stored versions of two different accounts are accepted as a pair. |
| ServiceProperties.SelfPostingsRejected | interview/src/main/java/com/revolut/interview/AccountCache.java:104-114 | In a valid store, a debit and a credit built from the same stored account are submitted as a pair of the same number. This always ends in Conflict with the map unchanged, and the two ids the legs stamped stay consumed. |
| ServiceProperties.TransferOutcome | interview/src/main/java/com/revolut/interview/AccountServiceImpl.java:39-56 | In a valid store, a transfer succeeds exactly when both accounts exist, the payer's funds cover the amount, and the accounts differ. A self-transfer that passes the checks ends in Conflict with the account map unchanged; the two ids its legs stamped stay consumed. |
| ServiceProperties.HealthyServiceable | interview/src/main/java/com/revolut/interview/AccountServiceImpl.java:40-49 | Every account in a store the service builds can be read and updated by a transfer. |
| ServiceProperties.InitialHealthy | interview/src/main/java/com/revolut/interview/AccountCache.java:20-24 | The reset store is well formed. |
| ServiceProperties.CreateAccountPreservesHealthy | interview/src/main/java/com/revolut/interview/AccountServiceImpl.java:16-31 | Opening an account keeps the store well formed: valid, and with every account non-empty and balance-consistent. |
| ServiceProperties.WriteKeepsHealthy | interview/src/main/java/com/revolut/interview/AccountCache.java:46 | Writing a non-empty, consistent account with issued ids under its own number keeps the store well formed. |
| ServiceProperties.PostedHealthy | interview/src/main/java/com/revolut/interview/AccountServiceImpl.java:51-52 | A posted transaction keeps the number, a non-empty consistent chain, and issued ids. |
| ServiceProperties.TwoWritesKeepHealthy | interview/src/main/java/com/revolut/interview/AccountCache.java:107-110 | Two such writes keep the store well formed. |
| ServiceProperties.PostingsKeepHealthy | interview/src/main/java/com/revolut/interview/AccountServiceImpl.java:51-54 | Posting the debit and the credit keeps the store well formed. |
| ServiceProperties.TransferredHealthyAscending | interview/src/main/java/com/revolut/interview/AccountServiceImpl.java:51-54 | The posted store of a transfer to a higher number is well formed. |
| ServiceProperties.TransferredHealthyDescending | interview/src/main/java/com/revolut/interview/AccountServiceImpl.java:51-54 | The posted store of a transfer to a lower number is well formed. |
| ServiceProperties.TransferredHealthy | interview/src/main/java/com/revolut/interview/AccountServiceImpl.java:51-54 | The posted store of any transfer between different accounts is well formed. |
| ServiceProperties.TransferPreservesHealthy | interview/src/main/java/com/revolut/interview/AccountServiceImpl.java:39-56 | Every transfer, successful or not, keeps the store well formed. |
| ServiceProperties.NegativeTransferOverdrawsPayee | interview/src/main/java/com/revolut/interview/AccountServiceImpl.java:42-52 | As written, a negative amount passes the funds check. When it exceeds the payee's funds, it leaves the payee below minus its overdraft limit. |
| ServiceProperties.TransferCheckedKeepsWithinLimits | interview/src/main/java/com/revolut/interview/AccountServiceImpl.java:42-52 | With the amount checked, every account stays at or above minus its overdraft limit. |
| Scenarios.CreateSample | interview/src/test/java/com/revolut/interview/AccountCacheTest.java:128-144 | Creating the test account (credit 50 to 50, debit 10 to 40) stores it under the next number, with the next two ids in entry order. |
| Scenarios.CacheCreate | interview/src/test/java/com/revolut/interview/AccountCacheTest.java:26-38 | After the reset, the first account created is number 1, and its entries get ids 1 and 2 in order, with their kinds, amounts and balances kept; the store stays valid. |
| Scenarios.CacheGet | interview/src/test/java/com/revolut/interview/AccountCacheTest.java:112-126 | Reading number 1 back after the first creation returns the account as stored, ids included. |
| Scenarios.CacheCreateSecond | interview/src/test/java/com/revolut/interview/AccountCacheTest.java:77-83 | The second creation, made when the pair tests set up their two accounts, is number 2 with ids 3 and 4, and the store stays valid. |
| Scenarios.CacheUpdate | interview/src/test/java/com/revolut/interview/AccountCacheTest.java:39-54 | Crediting 100 and updating gives three entries, the new one with id 3 and balance 140. |
| Scenarios.CacheConcurrentUpdate | interview/src/test/java/com/revolut/interview/AccountCacheTest.java:56-74 | Of two copies of account 1, the debited one is accepted first, and the credited one is then rejected with Conflict. |
| Scenarios.CachePairUpdate | interview/src/test/java/com/revolut/interview/AccountCacheTest.java:76-110 | The pair of accounts 1 and 2 is accepted in both orders, each side returned under its own number with three and two entries. |
| Scenarios.PairHealthy | interview/src/main/java/com/revolut/interview/AccountServiceImpl.java:16-31 | Two freshly opened accounts form a well-formed store. |
| Scenarios.PairTransfer | interview/src/main/java/com/revolut/interview/AccountServiceImpl.java:39-56 | Between two freshly opened accounts, a covered transfer from account 1 gives the debit id 3 and the credit id 4, with balances moved by the amount. |
| Scenarios.FundsBoundary | interview/src/test/java/com/revolut/interview/AccountServiceImplTest.java:74-154 | With balance 100 and overdraft limit 200, a transfer of 300 succeeds (leaving -200 and 500) and a transfer of 301 is refused with InsufficientFunds. |
| Scenarios.OpenTwo | interview/src/test/java/com/revolut/interview/AccountServiceControllerIT.java:37-38 | Opening two accounts with 100 each gives numbers 1 and 2 and ids 1 and 2. |
| Scenarios.OpenTwoAndTransfer | interview/src/test/java/com/revolut/interview/AccountServiceControllerIT.java:35-51 | Transferring 1100 from 1 to 2 stamps the debit 3 (balance -1000) and the credit 4 (balance 1200). |
| Scenarios.OpeningRequests | interview/src/test/java/com/revolut/interview/AccountServiceImplTest.java:48-132 | The store receives one unstamped credit of 100 with balance 100, and a deposit of -100 is refused. |
| Scenarios.NegativeTransferExample | interview/src/main/java/com/revolut/interview/AccountServiceImpl.java:42-54 | With payer 100 and payee 10, both with no overdraft, a transfer of -50 is accepted and leaves the payee at -40. The checked transfer refuses it. |
| Scenarios.RunTransfers | interview/src/test/java/com/revolut/interview/AccountServiceControllerConcurrencyIT.java:36-46 | Any sequence of transfers back and forth between two accounts, applied one after another, keeps the store well formed. |
| Scenarios.TransfersKeepPairBalanced | interview/src/test/java/com/revolut/interview/AccountServiceControllerConcurrencyIT.java:48-55 | For any order of non-negative transfers between two accounts without overdraft, both balances stay between 0 and their starting sum, and they always add up to it. |
| Scenarios.ConcurrentTransfersBalance | interview/src/test/java/com/revolut/interview/AccountServiceControllerConcurrencyIT.java:23-57 | For two accounts opened with 1000 each and no overdraft (numbered 1 and 2 here), every sequential order of transfers of 1000 leaves each balance in 0..2000 and their sum at 2000. |

## Left out

- Concurrency: `synchronized` on the boxed account numbers, the concurrent map and the atomic counters. Every operation is one atomic step, so deadlock freedom is not modelled beyond the lower-number-first order (`AccountStore.LegOrderIgnoresSides`). The concurrent transfer test is modelled as every sequential order of its transfers.
- The HTTP controller, the bootstrap and the exception-to-status mapping: these are I/O plumbing. The request objects are plain parameters.
- Exceptions: the errors thrown through `Validate` and `ConcurrentModificationException` become `Err` values. The pair update catches only `ConcurrentModificationException` (AccountCache.java:111-113), so in Java a null dereference or index error thrown by the second leg leaves the first leg committed. The model's preconditions exclude those failures, so its "all or nothing" holds only for Conflict, not for that case.
- The deposit check converts to a double. The model compares the exact deposit with zero. The scale-sensitive `equals(ZERO)` in `createAccount` can only be reached with a positive deposit, so it is modelled as a comparison with 0.
- `BigDecimal` scale and rounding: money is an exact `int`.
- Nulls: the customer name is an `Option`. A null amount, kind or balance is not modelled, and neither is a null account number handed to the single or the pair update (a precondition, see above).
- Integer wrap-around: the account and transaction counters are unbounded naturals. The Java atomic counters would wrap after 2^31 − 1 increments.
- Aliasing: the Java copy builds a new entry list but shares the entry objects with the original, so stamping ids also mutates the caller's entries. The model gives every copy its own entries and does not reproduce this sharing. In particular, a caller in the model never sees ids that a failed update stamped on its entries.
- Updating an account whose stored version has no entries: the Java code throws an index error while reading the anchor id, after the candidate has been published. The model makes a non-empty stored account a precondition of update (`AccountStore.Submittable`). The service never stores an account without entries, because the deposit must be positive.
- Updating a number that is not stored: the Java code has already put the candidate into the map (line 46) when reading the old account's last id throws a null dereference (line 48), so the Java map keeps the candidate under that number. The model makes a stored number a precondition of update (`AccountStore.Submittable`) and does not model that leftover entry.
- A candidate with an unstamped entry before a stamped one: the Java backward scan (lines 49-53) throws a null dereference only if it reaches the unstamped entry before finding the anchor. When the anchor is found first, the Java code stores the candidate as it is. The model excludes such candidates as a deliberate restriction (`WellFormed` inside `AccountStore.Submittable`), so it does not model that accepted case.
- Two concurrent no-op updates: in the code, two racing updates from the same base that append nothing both succeed, because the first leaves the anchor unchanged. `StoreProperties.LostUpdateRejected` therefore requires the winner to append at least one entry.
- Pairs of the same number are not excluded. The pair update processes the left copy first. When the left copy appends at least one entry, as the debit in a self-transfer does, the right copy then conflicts, as in the code (`ServiceProperties.SelfPostingsRejected`). When the left copy appends nothing, the anchor stays in place and the right copy can be accepted as well.
- `Scenarios.TransfersKeepPairBalanced`: requires a non-negative amount. With a negative amount the property fails, as the finding below shows.
- Scenarios.FundsBoundary: the service unit test runs against a mocked store whose entries carry no kind or id. The model runs it against two stored accounts with stamped opening credits, and states the store's outcome rather than the mock's recorded arguments.
- Scenarios.OpeningRequests: the unit test inspects the account handed to a mocked store. The model states that account (`AccountService.Opening`) and the refusal of a negative deposit; the mocked return value is not modelled.

## Findings

| source | as written | input that shows it | evidently intended | confidence | as-written member | corrected member |
|---|---|---|---|---|---|---|
| interview/src/main/java/com/revolut/interview/AccountServiceImpl.java:39-54 | `transfer` never checks the sign of the amount. A negative amount always passes the funds check, because any account within its limit has funds of at least zero. The payee is then "credited" with a negative amount. | Accounts 1 (balance 100) and 2 (balance 10), both with overdraft limit 0; transfer -50 from 1 to 2. The transfer succeeds and account 2 ends at -40, below its limit. | A transfer amount must be positive, as the opening deposit must be (line 17), and no transfer takes an account below its overdraft limit. | not executed | ServiceProperties.NegativeTransferOverdrawsPayee | ServiceProperties.TransferCheckedKeepsWithinLimits |

=== FILE: ids.dfy ===
/** Stamping of transaction ids: the store gives every entry of the trailing run
    of unstamped entries a fresh id drawn from the transaction counter. */
module TransactionIds {
  import opened Ledger

  /** Unstamped entries occur only in the trailing run: once an entry has no id,
      no later entry has one. */
  predicate WellFormed(es: seq<Entry>) {
    forall i, j :: 0 <= i < j < |es| && es[i].id.None? ==> es[j].id.None?
  }

  /** Every entry carries an id in 1..counter, and ids strictly increase from the
      oldest entry to the newest. */
  predicate IdsIssued(es: seq<Entry>, counter: nat) {
    && (forall i :: 0 <= i < |es| ==> es[i].id.Some? && 1 <= es[i].id.value <= counter)
    && (forall i, j :: 0 <= i < j < |es| ==> es[i].id.value < es[j].id.value)
  }

  /** Ids issued up to some counter are still issued once the counter has moved on. */
  lemma IdsIssuedMonotone(es: seq<Entry>, counter: nat, later: nat)
    requires IdsIssued(es, counter) && counter <= later
    ensures IdsIssued(es, later)
  {
  }

  /** The length of the longest suffix of entries that have no id. */
  function TrailingRun(es: seq<Entry>): (k: nat)
    ensures k <= |es|
    ensures forall i :: |es| - k <= i < |es| ==> es[i].id.None?
    ensures k < |es| ==> es[|es| - k - 1].id.Some?
  {
    if es == [] || es[|es| - 1].id.Some? then 0 else 1 + TrailingRun(es[..|es| - 1])
  }

  function Stamp(e: Entry, id: int): Entry {
    e.(id := Some(id))
  }

  /** The entries after stamping, with the counter standing at `counter`: everything
      before the trailing run is untouched and the run gets counter+1, counter+2, ...
      from oldest to newest. */
  function AssignIds(es: seq<Entry>, counter: nat): (r: seq<Entry>)
    ensures |r| == |es|
    ensures forall i :: 0 <= i < |es| ==>
              r[i].kind == es[i].kind && r[i].amount == es[i].amount && r[i].balance == es[i].balance
    ensures forall i :: 0 <= i < |es| - TrailingRun(es) ==> r[i] == es[i]
    ensures forall i :: |es| - TrailingRun(es) <= i < |es| ==>
              r[i] == Stamp(es[i], counter + 1 + i - (|es| - TrailingRun(es)))
  {
    var start := |es| - TrailingRun(es);
    seq(|es|, i requires 0 <= i < |es| =>
      if i < start then es[i] else Stamp(es[i], counter + 1 + i - start))
  }

  /** The ids handed out by one stamping are fresh (above the counter), within the
      block the counter advances over, and increasing in entry order. */
  lemma AssignedIdsFresh(es: seq<Entry>, counter: nat, i: int, j: int)
    requires |es| - TrailingRun(es) <= i < j < |es|
    ensures var r := AssignIds(es, counter);
            counter < r[i].id.value < r[j].id.value <= counter + TrailingRun(es)
  {
  }

  /** A well-formed entry list is fully stamped afterwards. */
  lemma AssignIdsIdentifies(es: seq<Entry>, counter: nat)
    requires WellFormed(es)
    ensures Identified(AssignIds(es, counter))
  {
    var r := AssignIds(es, counter);
    var start := |es| - TrailingRun(es);
    forall i | 0 <= i < |r|
      ensures r[i].id.Some?
    {
      if i < start {
        assert es[start - 1].id.Some?;
      }
    }
  }

  /** Ids issued on a prefix, read off the whole list. */
  lemma PrefixIssued(es: seq<Entry>, n: int, counter: nat)
    requires 0 <= n <= |es| && IdsIssued(es[..n], counter)
    ensures forall i :: 0 <= i < n ==> es[i].id.Some? && 1 <= es[i].id.value <= counter
    ensures forall i, j :: 0 <= i < j < n ==> es[i].id.value < es[j].id.value
  {
    assert forall i :: 0 <= i < n ==> es[..n][i] == es[i];
  }

  /** Stamping a list whose stamped part already holds issued ids yields issued ids
      up to the advanced counter. */
  lemma AssignIdsIssued(es: seq<Entry>, counter: nat)
    requires IdsIssued(es[..|es| - TrailingRun(es)], counter)
    ensures IdsIssued(AssignIds(es, counter), counter + TrailingRun(es))
  {
    PrefixIssued(es, |es| - TrailingRun(es), counter);
    var k := TrailingRun(es);
    var start := |es| - k;
    var r := AssignIds(es, counter);
    forall i | 0 <= i < |r|
      ensures r[i].id.Some? && 1 <= r[i].id.value <= counter + k
    {
      if i < start {
        assert r[i] == es[i];
      }
    }
    forall i, j | 0 <= i < j < |r|
      ensures r[i].id.value < r[j].id.value
    {
      if j < start {
        assert r[i] == es[i] && r[j] == es[j];
      } else if i < start {
        assert r[i] == es[i];
      }
    }
  }

  /** After stamping there is nothing left to stamp, so stamping again changes nothing. */
  lemma AssignIdsIdempotent(es: seq<Entry>, counter: nat, later: nat)
    ensures TrailingRun(AssignIds(es, counter)) == 0
    ensures AssignIds(AssignIds(es, counter), later) == AssignIds(es, counter)
  {
    var r := AssignIds(es, counter);
    if r != [] {
      assert r[|r| - 1].id.Some?;
    }
  }

  /** Stamping changes ids only, so a consistent balance chain stays consistent. */
  lemma AssignIdsKeepsConsistent(es: seq<Entry>, counter: nat)
    requires Consistent(es)
    ensures Consistent(AssignIds(es, counter))
  {
    var r := AssignIds(es, counter);
    forall i | 0 <= i < |r|
      ensures r[i].balance == Prior(r, i) + Signed(r[i].kind, r[i].amount)
    {
      assert r[i].balance == es[i].balance && r[i].kind == es[i].kind && r[i].amount == es[i].amount;
      if i > 0 {
        assert r[i - 1].balance == es[i - 1].balance;
      }
    }
  }

  /** Stamping leaves the balance and the other fields of an account as they were. */
  lemma StampingKeepsBalance(a: Account, counter: nat)
    ensures var b := a.(entries := AssignIds(a.entries, counter));
            CurrentBalance(b) == CurrentBalance(a) && b.overdraftLimit == a.overdraftLimit
  {
  }

  /** Unstamped entries appended to a fully stamped list form exactly the trailing run. */
  lemma TrailingRunOfAppended(es: seq<Entry>, extra: seq<Entry>)
    requires Identified(es)
    requires forall i :: 0 <= i < |extra| ==> extra[i].id.None?
    ensures TrailingRun(es + extra) == |extra|
    ensures WellFormed(es + extra)
  {
    var all := es + extra;
    var k := TrailingRun(all);
    assert forall i :: |es| <= i < |all| ==> all[i] == extra[i - |es|];
    assert es != [] ==> all[|es| - 1] == es[|es| - 1];
    assert k < |all| ==> all[|all| - k - 1].id.Some?;
  }

  /** Stamping unstamped entries appended to a fully stamped list leaves the
      stamped list in front as it was. */
  lemma StampAppended(es: seq<Entry>, extra: seq<Entry>, counter: nat)
    requires Identified(es)
    requires forall i :: 0 <= i < |extra| ==> extra[i].id.None?
    ensures AssignIds(es + extra, counter)[..|es|] == es
  {
    TrailingRunOfAppended(es, extra);
    var r := AssignIds(es + extra, counter);
    forall i | 0 <= i < |es|
      ensures r[i] == es[i]
    {
      assert (es + extra)[i] == es[i];
    }
  }

  /** Appending one transaction to a fully stamped account leaves exactly one entry to stamp. */
  lemma AddTransactionLeavesOneToStamp(a: Account, kind: TransactionType, amount: int)
    requires Identified(a.entries)
    ensures var es := AddTransaction(a, kind, amount).entries;
            WellFormed(es) && TrailingRun(es) == 1 && es[..|es| - 1] == a.entries
  {
    var es := AddTransaction(a, kind, amount).entries;
    assert es == a.entries + [es[|es| - 1]];
    TrailingRunOfAppended(a.entries, [es[|es| - 1]]);
  }

  /** The two loops that stamp the trailing run: count the unstamped entries from the
      end, then stamp them oldest first while advancing the counter. */
  method SetTransactionIds(es: seq<Entry>, counter: nat) returns (r: seq<Entry>, next: nat)
    ensures r == AssignIds(es, counter)
    ensures next == counter + TrailingRun(es)
  {
    var idCount := 0;
    var i := |es| - 1;
    while i >= 0 && es[i].id.None?
      invariant -1 <= i < |es|
      invariant idCount == |es| - 1 - i
      invariant forall j :: i < j < |es| ==> es[j].id.None?
    {
      idCount := idCount + 1;
      i := i - 1;
    }
    assert idCount == TrailingRun(es) by {
      var k := TrailingRun(es);
      assert 0 <= i ==> es[i].id.Some?;
      assert k < |es| ==> es[|es| - k - 1].id.Some?;
    }
    r := es;
    next := counter;
    var t := |es| - idCount;
    while t < |es|
      invariant |es| - idCount <= t <= |es|
      invariant |r| == |es|
      invariant next == counter + (t - (|es| - idCount))
      invariant forall j :: 0 <= j < t ==> r[j] == AssignIds(es, counter)[j]
      invariant forall j :: t <= j < |es| ==> r[j] == es[j]
    {
      next := next + 1;
      r := r[t := Stamp(r[t], next)];
      t := t + 1;
    }
  }
}

=== FILE: ledger.dfy ===
/** Ledger values: the entries of an account and the account itself, with the
    balance arithmetic an account performs on its own entry list. */
module Ledger {

  datatype Option<+T> = None | Some(value: T)

  datatype TransactionType = Credit | Debit

  /** One account transaction. `id` is None until the store stamps the entry;
      `balance` is the account balance right after the entry is applied. */
  datatype Entry = Entry(id: Option<int>, kind: TransactionType, amount: int, balance: int)

  /** An account as callers build and read it. `number` is None until the store
      allocates one; entries are in chronological order, oldest first. */
  datatype Account = Account(
    number: Option<int>,
    customerName: Option<string>,
    overdraftLimit: int,
    entries: seq<Entry>)

  /** The account a bare builder produces: no number, no name, a zero overdraft
      limit and no entries. */
  function NewAccount(): (a: Account)
    ensures a.number.None? && a.customerName.None?
    ensures a.overdraftLimit == 0 && a.entries == []
    ensures CurrentBalance(a) == 0
  {
    Account(None, None, 0, [])
  }

  /** The change an entry makes to the balance: a credit adds, anything else subtracts. */
  function Signed(kind: TransactionType, amount: int): int {
    if kind == Credit then amount else -amount
  }

  /** The balance after the newest entry, or zero for an account with no entries. */
  function CurrentBalance(a: Account): (b: int)
    ensures a.entries == [] ==> b == 0
  {
    if a.entries == [] then 0 else a.entries[|a.entries| - 1].balance
  }

  /** True when `id` is the id of one of the entries. */
  predicate Carries(es: seq<Entry>, id: Option<int>) {
    exists i :: 0 <= i < |es| && es[i].id == id
  }

  /** True when every entry has been stamped with an id. */
  predicate Identified(es: seq<Entry>) {
    forall i :: 0 <= i < |es| ==> es[i].id.Some?
  }

  /** The id of the newest entry; an account with no entries has none to give. */
  function LastTransactionId(a: Account): (id: Option<int>)
    requires a.entries != []
    ensures Carries(a.entries, id)
    ensures Identified(a.entries) ==> id.Some?
  {
    a.entries[|a.entries| - 1].id
  }

  /** Appends a ready-made entry, whatever its id and balance. */
  function AddEntry(a: Account, e: Entry): (r: Account)
    ensures r.number == a.number && r.customerName == a.customerName
    ensures r.overdraftLimit == a.overdraftLimit
    ensures |r.entries| == |a.entries| + 1 && r.entries[..|a.entries|] == a.entries
    ensures r.entries[|a.entries|] == e && CurrentBalance(r) == e.balance
  {
    a.(entries := a.entries + [e])
  }

  /** Appends an unstamped entry of the given kind and amount, whose balance is the
      current balance moved by the amount. */
  function AddTransaction(a: Account, kind: TransactionType, amount: int): (r: Account)
    ensures r.number == a.number && r.customerName == a.customerName
    ensures r.overdraftLimit == a.overdraftLimit
    ensures |r.entries| == |a.entries| + 1 && r.entries[..|a.entries|] == a.entries
    ensures var e := r.entries[|a.entries|];
            e.id.None? && e.kind == kind && e.amount == amount
    ensures CurrentBalance(r) == CurrentBalance(a) + Signed(kind, amount)
  {
    var newBalance :=
      if kind == Credit then CurrentBalance(a) + amount else CurrentBalance(a) - amount;
    AddEntry(a, Entry(None, kind, amount, newBalance))
  }

  /** The copy the store hands out and takes in, built field by field. Accounts
      are values here, so the copy equals the original; the model does not share
      entries between the two. */
  function CopyOf(a: Account): (r: Account)
    ensures r == a
  {
    Account(a.number, a.customerName, a.overdraftLimit, a.entries)
  }

  /** The balance before entry `i`: zero before the first entry. */
  function Prior(es: seq<Entry>, i: int): int
    requires 0 <= i < |es|
  {
    if i == 0 then 0 else es[i - 1].balance
  }

  /** Every entry's balance is the previous balance moved by the entry's amount. */
  predicate Consistent(es: seq<Entry>) {
    forall i :: 0 <= i < |es| ==> es[i].balance == Prior(es, i) + Signed(es[i].kind, es[i].amount)
  }

  /** Appending an entry whose balance is the current balance moved by its amount
      keeps the balance chain of a consistent account intact. */
  lemma AddEntryKeepsConsistent(a: Account, e: Entry)
    requires Consistent(a.entries)
    requires e.balance == CurrentBalance(a) + Signed(e.kind, e.amount)
    ensures Consistent(AddEntry(a, e).entries)
  {
    var r := AddEntry(a, e);
    var n := |a.entries|;
    forall i | 0 <= i < |r.entries|
      ensures r.entries[i].balance == Prior(r.entries, i) + Signed(r.entries[i].kind, r.entries[i].amount)
    {
      if i < n {
        assert r.entries[i] == a.entries[i];
        assert i > 0 ==> r.entries[i - 1] == a.entries[i - 1];
        assert Prior(r.entries, i) == Prior(a.entries, i);
      } else {
        assert n > 0 ==> r.entries[n - 1] == a.entries[n - 1];
        assert Prior(r.entries, i) == CurrentBalance(a);
      }
    }
  }

  /** Appending a transaction keeps the balance chain of a consistent account intact. */
  lemma AddTransactionKeepsConsistent(a: Account, kind: TransactionType, amount: int)
    requires Consistent(a.entries)
    ensures Consistent(AddTransaction(a, kind, amount).entries)
  {
    var balance := if kind == Credit then CurrentBalance(a) + amount else CurrentBalance(a) - amount;
    var e := Entry(None, kind, amount, balance);
    assert AddTransaction(a, kind, amount) == AddEntry(a, e);
    AddEntryKeepsConsistent(a, e);
  }

  /** The sum of the signed amounts of all entries. */
  function SignedSum(es: seq<Entry>): int {
    if es == [] then 0 else SignedSum(es[..|es| - 1]) + Signed(es[|es| - 1].kind, es[|es| - 1].amount)
  }

  /** On a consistent account the current balance is the sum of the signed amounts,
      counted from an implicit starting balance of zero. */
  lemma {:induction false} BalanceIsSignedSum(a: Account)
    requires Consistent(a.entries)
    ensures CurrentBalance(a) == SignedSum(a.entries)
    decreases |a.entries|
  {
    if a.entries != [] {
      var n := |a.entries|;
      var shorter := a.(entries := a.entries[..n - 1]);
      DropLastKeepsConsistent(a.entries);
      BalanceIsSignedSum(shorter);
      var last := a.entries[n - 1];
      assert last.balance == Prior(a.entries, n - 1) + Signed(last.kind, last.amount);
      assert CurrentBalance(shorter) == Prior(a.entries, n - 1) by {
        if n > 1 {
          assert shorter.entries[n - 2] == a.entries[n - 2];
        }
      }
      assert SignedSum(a.entries) == SignedSum(shorter.entries) + Signed(last.kind, last.amount);
    }
  }

  /** Dropping the newest entry keeps a consistent balance chain consistent. */
  lemma DropLastKeepsConsistent(es: seq<Entry>)
    requires es != [] && Consistent(es)
    ensures Consistent(es[..|es| - 1])
  {
    var shorter := es[..|es| - 1];
    forall i | 0 <= i < |shorter|
      ensures shorter[i].balance == Prior(shorter, i) + Signed(shorter[i].kind, shorter[i].amount)
    {
      assert shorter[i] == es[i];
      assert i > 0 ==> shorter[i - 1] == es[i - 1];
    }
  }
}

=== FILE: scenarios.dfy ===
/** The behaviour the repository's own tests describe, stated of the model on the
    accounts those tests build, and the property the concurrent transfer test
    samples, proved for every order in which the transfers could be applied. */
module Scenarios {
  import opened Ledger
  import opened TransactionIds
  import opened AccountStore
  import opened StoreProperties
  import opened AccountService
  import opened ServiceProperties

  /** The account the cache tests submit: a credit of 50 and then a debit of 10,
      neither stamped yet, with an overdraft limit of 100. */
  function Sample(): Account {
    Account(None, Some("Joe Smith"), 100, [Entry(None, Credit, 50, 50), Entry(None, Debit, 10, 40)])
  }

  /** The sample as the store holds it under number `n` once stamped from `counter`. */
  function SampleStored(n: int, counter: nat): Account {
    Account(Some(n), Some("Joe Smith"), 100,
            [Entry(Some(counter + 1), Credit, 50, 50), Entry(Some(counter + 2), Debit, 10, 40)])
  }

  /** Creating the sample stores it under the next number with the next two ids. */
  lemma CreateSample(s: Store)
    ensures var r := Create(s, Sample());
            && r.result == Ok(SampleStored(s.accountCounter + 1, s.transactionCounter))
            && r.store == Store(s.accounts[s.accountCounter + 1 := SampleStored(s.accountCounter + 1, s.transactionCounter)],
                                s.accountCounter + 1, s.transactionCounter + 2)
  {
    SampleStamps(s.transactionCounter);
    assert Stamped(s, Sample()).(number := Some(s.accountCounter + 1))
           == SampleStored(s.accountCounter + 1, s.transactionCounter);
  }

  /** Stamping the sample's two entries from `t` gives them ids t + 1 and t + 2. */
  lemma SampleStamps(t: nat)
    ensures TrailingRun(Sample().entries) == 2
    ensures AssignIds(Sample().entries, t)
            == [Entry(Some(t + 1), Credit, 50, 50), Entry(Some(t + 2), Debit, 10, 40)]
  {
    var es := Sample().entries;
    assert [] + es == es;
    TrailingRunOfAppended([], es);
    var r := AssignIds(es, t);
    assert r[0] == Entry(Some(t + 1), Credit, 50, 50);
    assert r[1] == Entry(Some(t + 2), Debit, 10, 40);
  }

  /** The store after the reset and one creation of the sample. */
  function OneSample(): Store {
    Store(map[1 := SampleStored(1, 0)], 1, 2)
  }

  /** The store after the reset and two creations of the sample. */
  function TwoSamples(): Store {
    Store(map[1 := SampleStored(1, 0), 2 := SampleStored(2, 2)], 2, 4)
  }

  /** The first account created after the reset is number 1, and its entries get
      ids 1 and 2 in order and keep their kinds, amounts and balances. */
  lemma CacheCreate()
    ensures Create(Initial(), Sample()) == Step(OneSample(), Ok(SampleStored(1, 0)))
    ensures Valid(OneSample())
  {
    CreateSample(Initial());
    CreateThenGet(Initial(), Sample());
  }

  /** Reading number 1 back after the first creation returns the account as
      stored, ids included. */
  lemma CacheGet()
    ensures Get(Create(Initial(), Sample()).store, 1) == Ok(SampleStored(1, 0))
  {
    CacheCreate();
  }

  /** A second creation of the sample is number 2, with ids 3 and 4. */
  lemma CacheCreateSecond()
    ensures Create(OneSample(), Sample()) == Step(TwoSamples(), Ok(SampleStored(2, 2)))
    ensures Valid(TwoSamples())
  {
    CacheCreate();
    CreateSample(OneSample());
    assert OneSample().accounts[2 := SampleStored(2, 2)] == TwoSamples().accounts;
    CreateThenGet(OneSample(), Sample());
  }

  /** Crediting 100 to the stored account and submitting it stamps the new entry
      with id 3 and balance 140, after the two entries it had. */
  lemma CacheUpdate()
    ensures var c := AddTransaction(SampleStored(1, 0), Credit, 100);
            && Submittable(OneSample(), c)
            && Update(OneSample(), c).result
               == Ok(SampleStored(1, 0).(entries := SampleStored(1, 0).entries + [Entry(Some(3), Credit, 100, 140)]))
  {
    var c := AddTransaction(SampleStored(1, 0), Credit, 100);
    SampleCredited();
    assert Stamped(OneSample(), c).entries[1].id == Some(2);
  }

  /** The sample as stored, with a credit of 100 appended, has one entry to stamp;
      stamped from 2 it gets id 3 after the two it had. */
  lemma SampleCredited()
    ensures var c := AddTransaction(SampleStored(1, 0), Credit, 100);
            && WellFormed(c.entries)
            && AssignIds(c.entries, 2) == SampleStored(1, 0).entries + [Entry(Some(3), Credit, 100, 140)]
  {
    var base := SampleStored(1, 0);
    var c := AddTransaction(base, Credit, 100);
    AddTransactionLeavesOneToStamp(base, Credit, 100);
    var r := AssignIds(c.entries, 2);
    assert r[0] == base.entries[0] by {
      assert c.entries[0] == base.entries[0];
    }
    assert r[1] == base.entries[1] by {
      assert c.entries[1] == base.entries[1];
    }
    assert r[2] == Entry(Some(3), Credit, 100, 140);
  }

  /** Two callers read account 1; one appends a credit of 100, the other a debit of
      10. The debit is submitted first and accepted; the credit, built on the
      version the debit replaced, is then rejected with Conflict. */
  lemma CacheConcurrentUpdate()
    ensures var credited := AddTransaction(SampleStored(1, 0), Credit, 100);
            var debited := AddTransaction(SampleStored(1, 0), Debit, 10);
            && Submittable(OneSample(), debited)
            && var w := Update(OneSample(), debited);
               && w.result.Ok?
               && Submittable(w.store, credited)
               && Update(w.store, credited).result == Err(Conflict)
               && Update(w.store, credited).store.accounts == w.store.accounts
  {
    CacheCreate();
    var base := SampleStored(1, 0);
    LostUpdateRejected(OneSample(), 1, [Entry(None, Debit, 10, 30)], [Entry(None, Credit, 100, 140)]);
    assert AddTransaction(base, Debit, 10) == base.(entries := base.entries + [Entry(None, Debit, 10, 30)]);
    assert AddTransaction(base, Credit, 100) == base.(entries := base.entries + [Entry(None, Credit, 100, 140)]);
  }

  /** Submitting account 1 with a new credit together with the unchanged account 2
      succeeds in either order of the pair; each side comes back under its own
      number, account 1 with three entries and account 2 with its two. */
  lemma CachePairUpdate()
    ensures var left := AddTransaction(SampleStored(1, 0), Credit, 100);
            var right := SampleStored(2, 2);
            && Submittable(TwoSamples(), left) && Submittable(TwoSamples(), right)
            && (var r := UpdatePair(TwoSamples(), left, right);
                && r.result.Ok?
                && r.result.value.0.number == Some(1) && |r.result.value.0.entries| == 3
                && r.result.value.1.number == Some(2) && |r.result.value.1.entries| == 2)
            && (var q := UpdatePair(TwoSamples(), right, left);
                && q.result.Ok?
                && q.result.value.0.number == Some(2) && |q.result.value.0.entries| == 2
                && q.result.value.1.number == Some(1) && |q.result.value.1.entries| == 3)
  {
    CacheCreateSecond();
    var s := TwoSamples();
    var base := SampleStored(1, 0);
    var left := AddTransaction(base, Credit, 100);
    var right := SampleStored(2, 2);
    AddTransactionLeavesOneToStamp(base, Credit, 100);
    assert left.entries[1] == base.entries[1];
    assert Carries(left.entries, LastTransactionId(s.accounts[1]));
    assert Carries(right.entries, LastTransactionId(s.accounts[2]));
    assert WellFormed(right.entries);
    UpdatePairAcceptsIff(s, left, right);
    UpdatePairAcceptsIff(s, right, left);
  }

  /** Account `n` as the service stores it after opening it: a single credit of the
      deposit, stamped with id `n`. */
  function Opened(n: int, name: Option<string>, limit: int, deposit: int): Account {
    Account(Some(n), name, limit, [Entry(Some(n), Credit, deposit, deposit)])
  }

  /** A store holding accounts 1 and 2, each opened with a stamped credit, and no
      other ids or numbers handed out. */
  function Pair(x: Account, y: Account): Store {
    Store(map[1 := x, 2 := y], 2, 2)
  }

  lemma PairHealthy(name1: Option<string>, limit1: int, opening1: int, name2: Option<string>, limit2: int, opening2: int)
    ensures var s := Pair(Opened(1, name1, limit1, opening1), Opened(2, name2, limit2, opening2));
            Healthy(s) && Serviceable(s, 1) && Serviceable(s, 2)
  {
    var s := Pair(Opened(1, name1, limit1, opening1), Opened(2, name2, limit2, opening2));
    forall n | n in s.accounts
      ensures Consistent(s.accounts[n].entries)
    {
      assert Prior(s.accounts[n].entries, 0) == 0;
    }
    HealthyServiceable(s, 1);
    HealthyServiceable(s, 2);
  }

  /** Posting a transaction on a freshly opened account puts it after the opening
      credit, with the balance moved from the deposit. */
  lemma PostedOnOpened(n: int, name: Option<string>, limit: int, deposit: int,
                       kind: TransactionType, amount: int, counter: nat)
    ensures Posted(Opened(n, name, limit, deposit), kind, amount, counter).entries
            == [Entry(Some(n), Credit, deposit, deposit),
                Entry(Some(counter + 1), kind, amount, deposit + Signed(kind, amount))]
  {
  }

  /** The transfer between two freshly opened accounts, as postings: the debit is
      posted on account 1 from counter 2 and the credit on account 2 from counter 3. */
  lemma PairTransferPostings(name1: Option<string>, limit1: int, opening1: int,
                             name2: Option<string>, limit2: int, opening2: int, amount: int)
    requires opening1 + limit1 >= amount
    ensures var x := Opened(1, name1, limit1, opening1);
            var y := Opened(2, name2, limit2, opening2);
            var s := Pair(x, y);
            && Serviceable(s, 1) && Serviceable(s, 2)
            && var r := Transfer(s, 1, 2, amount);
               && r.result.Ok?
               && r.store.accounts[1] == Posted(x, Debit, amount, 2)
               && r.store.accounts[2] == Posted(y, Credit, amount, 3)
  {
    var s := Pair(Opened(1, name1, limit1, opening1), Opened(2, name2, limit2, opening2));
    PairHealthy(name1, limit1, opening1, name2, limit2, opening2);
    TransferOutcome(s, 1, 2, amount);
    TransferPosts(s, 1, 2, amount);
  }

  /** Between two freshly opened accounts, a transfer from account 1 that its funds
      cover succeeds: the debit takes id 3 and the credit id 4, each carrying the
      balance moved by the amount. */
  lemma PairTransfer(name1: Option<string>, limit1: int, opening1: int,
                     name2: Option<string>, limit2: int, opening2: int, amount: int)
    requires opening1 + limit1 >= amount
    ensures var s := Pair(Opened(1, name1, limit1, opening1), Opened(2, name2, limit2, opening2));
            && Serviceable(s, 1) && Serviceable(s, 2)
            && var r := Transfer(s, 1, 2, amount);
               && r.result.Ok?
               && r.store.accounts[1].entries
                  == [Entry(Some(1), Credit, opening1, opening1), Entry(Some(3), Debit, amount, opening1 - amount)]
               && r.store.accounts[2].entries
                  == [Entry(Some(2), Credit, opening2, opening2), Entry(Some(4), Credit, amount, opening2 + amount)]
  {
    PairTransferPostings(name1, limit1, opening1, name2, limit2, opening2, amount);
    PairPostedEntries(name1, limit1, opening1, name2, limit2, opening2, amount);
  }

  /** The debit posted on account 1 from counter 2 and the credit posted on account
      2 from counter 3, entry by entry. */
  lemma PairPostedEntries(name1: Option<string>, limit1: int, opening1: int,
                          name2: Option<string>, limit2: int, opening2: int, amount: int)
    ensures Posted(Opened(1, name1, limit1, opening1), Debit, amount, 2).entries
            == [Entry(Some(1), Credit, opening1, opening1), Entry(Some(3), Debit, amount, opening1 - amount)]
    ensures Posted(Opened(2, name2, limit2, opening2), Credit, amount, 3).entries
            == [Entry(Some(2), Credit, opening2, opening2), Entry(Some(4), Credit, amount, opening2 + amount)]
  {
    PostedOnOpened(1, name1, limit1, opening1, Debit, amount, 2);
    PostedOnOpened(2, name2, limit2, opening2, Credit, amount, 3);
    assert Entry(Some(2 + 1), Debit, amount, opening1 + Signed(Debit, amount)) == Entry(Some(3), Debit, amount, opening1 - amount);
    assert Entry(Some(3 + 1), Credit, amount, opening2 + Signed(Credit, amount)) == Entry(Some(4), Credit, amount, opening2 + amount);
  }

  /** The payer has balance 100 and overdraft limit 200, so its funds are 300: a
      transfer of 300 to the payee at 200 succeeds, leaving the payer at -200 and
      the payee at 500; a transfer of 301 is refused and changes nothing. */
  lemma FundsBoundary()
    ensures var s := Pair(Opened(1, None, 200, 100), Opened(2, None, 0, 200));
            && Serviceable(s, 1) && Serviceable(s, 2)
            && CurrentBalance(Transfer(s, 1, 2, 300).store.accounts[1]) == -200
            && CurrentBalance(Transfer(s, 1, 2, 300).store.accounts[2]) == 500
            && Transfer(s, 1, 2, 301) == Step(s, Err(InsufficientFunds))
  {
    PairTransfer(None, 200, 100, None, 0, 200, 300);
    PairHealthy(None, 200, 100, None, 0, 200);
  }

  /** Opening two accounts from the reset store, each with 100 and an overdraft
      limit of 1000, gives numbers 1 and 2 and ids 1 and 2. */
  lemma OpenTwo()
    ensures var a := CreateAccount(Initial(), Some("Joe Smith"), 1000, 100);
            var b := CreateAccount(a.store, Some("Fred Blogs"), 1000, 100);
            && a.result == Ok(Opened(1, Some("Joe Smith"), 1000, 100))
            && b.result == Ok(Opened(2, Some("Fred Blogs"), 1000, 100))
            && b.store == Pair(Opened(1, Some("Joe Smith"), 1000, 100), Opened(2, Some("Fred Blogs"), 1000, 100))
  {
    var a := CreateAccount(Initial(), Some("Joe Smith"), 1000, 100);
    assert a.store.accounts == map[1 := Opened(1, Some("Joe Smith"), 1000, 100)];
    var b := CreateAccount(a.store, Some("Fred Blogs"), 1000, 100);
    assert b.store.accounts == map[1 := Opened(1, Some("Joe Smith"), 1000, 100), 2 := Opened(2, Some("Fred Blogs"), 1000, 100)];
  }

  /** The end-to-end transfer: after opening the two accounts, moving 1100 from
      account 1 to account 2 stamps the debit with id 3 and the credit with id 4,
      leaving -1000 and 1200. */
  lemma OpenTwoAndTransfer()
    ensures var s := Pair(Opened(1, Some("Joe Smith"), 1000, 100), Opened(2, Some("Fred Blogs"), 1000, 100));
            && Serviceable(s, 1) && Serviceable(s, 2)
            && var r := Transfer(s, 1, 2, 1100);
               && r.result.Ok?
               && r.store.accounts[1].entries
                  == [Entry(Some(1), Credit, 100, 100), Entry(Some(3), Debit, 1100, -1000)]
               && r.store.accounts[2].entries
                  == [Entry(Some(2), Credit, 100, 100), Entry(Some(4), Credit, 1100, 1200)]
  {
    PairTransfer(Some("Joe Smith"), 1000, 100, Some("Fred Blogs"), 1000, 100, 1100);
  }

  /** Opening an account hands the store one unstamped credit of the deposit; a
      deposit of -100 is refused and the store is left alone. */
  lemma OpeningRequests(s: Store)
    ensures Opening(Some("Joe Smith"), 1000, 100).entries == [Entry(None, Credit, 100, 100)]
    ensures CreateAccount(s, Some("Joe Smith"), 1000, -100) == Step(s, Err(InvalidArgument))
  {
  }

  /** The counterexample behind the missing amount check: with the payer at 100 and
      the payee at 10, neither allowed an overdraft, a transfer of -50 is accepted
      and leaves the payee at -40; the checked transfer refuses it. */
  lemma NegativeTransferExample()
    ensures var s := Pair(Opened(1, None, 0, 100), Opened(2, None, 0, 10));
            && Serviceable(s, 1) && Serviceable(s, 2)
            && (var r := Transfer(s, 1, 2, -50);
                r.result.Ok? && CurrentBalance(r.store.accounts[2]) == -40 && r.store.accounts[2].overdraftLimit == 0)
            && TransferChecked(s, 1, 2, -50).result == Err(InvalidArgument)
  {
    PairTransfer(None, 0, 100, None, 0, 10, -50);
  }

  /** Applies one transfer of `amount` per element of `moves`, in order: `true`
      moves it from `a` to `b`, `false` from `b` to `a`. A failed transfer leaves
      the accounts as they were and the next one goes ahead. */
  function RunTransfers(s: Store, a: int, b: int, amount: int, moves: seq<bool>): (r: Store)
    requires Healthy(s)
    ensures Healthy(r)
    decreases |moves|
  {
    if moves == [] then
      s
    else
      var from := if moves[0] then a else b;
      var to := if moves[0] then b else a;
      TransferPreservesHealthy(s, from, to, amount);
      RunTransfers(Transfer(s, from, to, amount).store, a, b, amount, moves[1..])
  }

  /** However the transfers of a non-negative amount back and forth between two
      accounts with no overdraft are ordered, the two balances never go below zero
      and always sum to what they summed to at the start, so neither exceeds that
      sum. */
  lemma {:induction false} TransfersKeepPairBalanced(s: Store, a: int, b: int, amount: int, moves: seq<bool>)
    requires Healthy(s) && a in s.accounts && b in s.accounts && a != b
    requires s.accounts[a].overdraftLimit == 0 && s.accounts[b].overdraftLimit == 0
    requires CurrentBalance(s.accounts[a]) >= 0 && CurrentBalance(s.accounts[b]) >= 0
    requires amount >= 0
    ensures var m := RunTransfers(s, a, b, amount, moves).accounts;
            var total := CurrentBalance(s.accounts[a]) + CurrentBalance(s.accounts[b]);
            && a in m && b in m
            && m[a].overdraftLimit == 0 && m[b].overdraftLimit == 0
            && CurrentBalance(m[a]) + CurrentBalance(m[b]) == total
            && 0 <= CurrentBalance(m[a]) <= total
            && 0 <= CurrentBalance(m[b]) <= total
    decreases |moves|
  {
    if moves != [] {
      var from := if moves[0] then a else b;
      var to := if moves[0] then b else a;
      var next := Transfer(s, from, to, amount).store;
      TransferPreservesHealthy(s, from, to, amount);
      TransferKeepsPairBalanced(s, a, b, amount, from, to);
      assert RunTransfers(s, a, b, amount, moves) == RunTransfers(next, a, b, amount, moves[1..]);
      TransfersKeepPairBalanced(next, a, b, amount, moves[1..]);
    }
  }

  /** Both accounts are present with no overdraft, neither is below zero, and
      their balances sum to `total`. */
  predicate PairBalanced(m: map<int, Account>, a: int, b: int, total: int) {
    && a in m && b in m
    && m[a].overdraftLimit == 0 && m[b].overdraftLimit == 0
    && CurrentBalance(m[a]) >= 0 && CurrentBalance(m[b]) >= 0
    && CurrentBalance(m[a]) + CurrentBalance(m[b]) == total
  }

  /** One transfer of a non-negative amount in either direction between the two
      accounts keeps them balanced against the same total. */
  lemma TransferKeepsPairBalanced(s: Store, a: int, b: int, amount: int, from: int, to: int)
    requires Healthy(s) && a in s.accounts && b in s.accounts && a != b && amount >= 0
    requires (from == a && to == b) || (from == b && to == a)
    requires PairBalanced(s.accounts, a, b, CurrentBalance(s.accounts[a]) + CurrentBalance(s.accounts[b]))
    ensures PairBalanced(Transfer(s, from, to, amount).store.accounts, a, b,
                         CurrentBalance(s.accounts[a]) + CurrentBalance(s.accounts[b]))
  {
    TransferPreservesHealthy(s, from, to, amount);
    if Transfer(s, from, to, amount).result.Ok? {
      TransferMovesAmount(s, from, to, amount);
    }
  }

  /** The concurrent test's accounts: two opened with 1000 and no overdraft. Any
      sequence of transfers of 1000 between them in either direction leaves each
      balance between 0 and 2000 and the two summing to 2000. */
  lemma ConcurrentTransfersBalance(moves: seq<bool>)
    ensures var s := Pair(Opened(1, Some("Joe Smith"), 0, 1000), Opened(2, Some("Fred Blogs"), 0, 1000));
            && Healthy(s)
            && var m := RunTransfers(s, 1, 2, 1000, moves).accounts;
               && 1 in m && 2 in m
               && 0 <= CurrentBalance(m[1]) <= 2000
               && 0 <= CurrentBalance(m[2]) <= 2000
               && CurrentBalance(m[1]) + CurrentBalance(m[2]) == 2000
  {
    var s := Pair(Opened(1, Some("Joe Smith"), 0, 1000), Opened(2, Some("Fred Blogs"), 0, 1000));
    PairHealthy(Some("Joe Smith"), 0, 1000, Some("Fred Blogs"), 0, 1000);
    TransfersKeepPairBalanced(s, 1, 2, 1000, moves);
  }
}

=== FILE: service.dfy ===
/** The account service: opening an account with a deposit, reading one, and
    moving money between two accounts, each built on the account store. */
module AccountService {
  import opened Ledger
  import opened TransactionIds
  import opened AccountStore

  /** The money an account can still pay out: its balance plus its overdraft limit. */
  function Funds(a: Account): int {
    CurrentBalance(a) + a.overdraftLimit
  }

  /** The account stored under `n`, when there is one, is one the store can update:
      it sits under its own number, has at least one entry, and all its entries are
      stamped. Every account the service itself stores is like this. */
  predicate Serviceable(s: Store, n: int) {
    n in s.accounts ==>
      && s.accounts[n].number == Some(n)
      && s.accounts[n].entries != []
      && Identified(s.accounts[n].entries)
  }

  /** The account handed to the store when one is opened: the requested name and
      overdraft limit, and an opening credit of the deposit unless it is zero. */
  function Opening(name: Option<string>, overdraftLimit: int, deposit: int): (a: Account)
    ensures a.number.None? && a.customerName == name && a.overdraftLimit == overdraftLimit
    ensures deposit != 0 ==> a.entries == [Entry(None, Credit, deposit, deposit)]
    ensures deposit == 0 ==> a.entries == []
    ensures Consistent(a.entries) && CurrentBalance(a) == deposit
  {
    var blank := NewAccount().(customerName := name, overdraftLimit := overdraftLimit);
    if deposit != 0 then AddEntry(blank, Entry(None, Credit, deposit, deposit)) else blank
  }

  /** Opens an account. A deposit that is not positive is refused and the store is
      left alone; otherwise the account gets the next number and its opening credit
      gets the next transaction id. */
  function CreateAccount(s: Store, name: Option<string>, overdraftLimit: int, deposit: int): (r: Step<Account>)
    ensures deposit <= 0 ==> r == Step(s, Err(InvalidArgument))
    ensures deposit > 0 ==>
              && r.result.Ok?
              && r.result.value.number == Some(s.accountCounter + 1)
              && r.result.value.customerName == name
              && r.result.value.overdraftLimit == overdraftLimit
              && r.result.value.entries == [Entry(Some(s.transactionCounter + 1), Credit, deposit, deposit)]
              && r.store.accounts == s.accounts[s.accountCounter + 1 := r.result.value]
              && r.store.accountCounter == s.accountCounter + 1
              && r.store.transactionCounter == s.transactionCounter + 1
  {
    if deposit <= 0 then
      Step(s, Err(InvalidArgument))
    else
      Create(s, Opening(name, overdraftLimit, deposit))
  }

  /** Reads an account: NotFound exactly when no account has the number. */
  function GetAccount(s: Store, n: int): (r: Result<Account>)
    ensures r.Ok? <==> n in s.accounts
    ensures r.Ok? ==> r.value == s.accounts[n]
    ensures r.Err? ==> r.error == NotFound
  {
    Get(s, n)
  }

  /** Moves `amount` from one account to another: reads the payer, checks its funds
      (the amount may use up the funds exactly), reads the payee, appends a debit to
      the payer and a credit to the payee and submits the two as a pair. Failures
      leave every account as it was; a success moves the amount and keeps the sum of
      the two balances. */
  function Transfer(s: Store, fromNo: int, toNo: int, amount: int): (r: Step<()>)
    requires Serviceable(s, fromNo) && Serviceable(s, toNo)
    ensures fromNo !in s.accounts ==> r == Step(s, Err(NotFound))
    ensures fromNo in s.accounts && Funds(s.accounts[fromNo]) < amount ==>
              r == Step(s, Err(InsufficientFunds))
    ensures fromNo in s.accounts && Funds(s.accounts[fromNo]) >= amount && toNo !in s.accounts ==>
              r == Step(s, Err(NotFound))
    ensures r.store.accountCounter == s.accountCounter
    ensures r.store.transactionCounter >= s.transactionCounter
    ensures r.result.Err? ==> r.store.accounts == s.accounts
    ensures r.result.Ok? ==>
              fromNo in s.accounts && toNo in s.accounts && Funds(s.accounts[fromNo]) >= amount
  {
    match Get(s, fromNo)
    case Err(e) => Step(s, Err(e))
    case Ok(from) =>
      if Funds(from) < amount then
        Step(s, Err(InsufficientFunds))
      else
        match Get(s, toNo)
        case Err(e) => Step(s, Err(e))
        case Ok(to) =>
          var debited := AddTransaction(from, Debit, amount);
          var credited := AddTransaction(to, Credit, amount);
          AddTransactionLeavesOneToStamp(from, Debit, amount);
          AddTransactionLeavesOneToStamp(to, Credit, amount);
          var u := UpdatePair(s, debited, credited);
          Step(u.store, if u.result.Ok? then Ok(()) else Err(u.result.error))
  }

  /** Transfer with the amount checked first: an amount that is not positive is
      refused, as an opening deposit is. */
  function TransferChecked(s: Store, fromNo: int, toNo: int, amount: int): (r: Step<()>)
    requires Serviceable(s, fromNo) && Serviceable(s, toNo)
    ensures amount <= 0 ==> r == Step(s, Err(InvalidArgument))
    ensures amount > 0 ==> r == Transfer(s, fromNo, toNo, amount)
  {
    if amount <= 0 then Step(s, Err(InvalidArgument)) else Transfer(s, fromNo, toNo, amount)
  }
}

=== FILE: service_properties.dfy ===
/** Properties of the account service over every store it can reach. */
module ServiceProperties {
  import opened Ledger
  import opened TransactionIds
  import opened AccountStore
  import opened StoreProperties
  import opened AccountService

  /** Overwriting two present keys keeps the key set and every other entry. */
  lemma TwoWritesKeepOthers(m: map<int, Account>, a: int, x: Account, b: int, y: Account)
    requires a in m && b in m
    ensures m[a := x][b := y].Keys == m.Keys
    ensures forall n :: n in m && n != a && n != b ==> m[a := x][b := y][n] == m[n]
  {
  }

  /** Writes to two different keys can be done in either order. */
  lemma SwapWrites(m: map<int, Account>, a: int, x: Account, b: int, y: Account)
    requires a != b
    ensures m[a := x][b := y] == m[b := y][a := x]
  {
  }

  /** An account with one transaction posted: the entry of the given kind and
      amount, carrying id counter + 1 and the balance moved by the amount. */
  function Posted(a: Account, kind: TransactionType, amount: int, counter: nat): Account {
    AddEntry(a, Entry(Some(counter + 1), kind, amount, CurrentBalance(a) + Signed(kind, amount)))
  }

  /** Appending a transaction to a fully stamped account and then stamping it from
      `counter` posts that transaction with id counter + 1. */
  lemma StampedPosting(a: Account, kind: TransactionType, amount: int, counter: nat)
    requires Identified(a.entries)
    ensures AddTransaction(a, kind, amount).(entries := AssignIds(AddTransaction(a, kind, amount).entries, counter))
            == Posted(a, kind, amount, counter)
  {
    var b := AddTransaction(a, kind, amount);
    AddTransactionLeavesOneToStamp(a, kind, amount);
    var r := AssignIds(b.entries, counter);
    var p := Posted(a, kind, amount, counter).entries;
    forall i | 0 <= i < |r|
      ensures r[i] == p[i]
    {
      if i < |a.entries| {
        assert b.entries[i] == a.entries[i];
      }
    }
  }

  /** A posting keeps a consistent balance chain consistent. */
  lemma PostedKeepsConsistent(a: Account, kind: TransactionType, amount: int, counter: nat)
    requires Consistent(a.entries)
    ensures Consistent(Posted(a, kind, amount, counter).entries)
  {
    var e := Entry(Some(counter + 1), kind, amount, CurrentBalance(a) + Signed(kind, amount));
    assert Posted(a, kind, amount, counter) == AddEntry(a, e);
    AddEntryKeepsConsistent(a, e);
  }

  /** Posting on an account whose ids were issued up to `counter` leaves ids issued
      up to any later counter beyond the one id it takes. */
  lemma PostedIssued(a: Account, kind: TransactionType, amount: int, counter: nat, later: nat)
    requires IdsIssued(a.entries, counter) && counter + 1 <= later
    ensures IdsIssued(Posted(a, kind, amount, counter).entries, later)
  {
    var p := Posted(a, kind, amount, counter).entries;
    forall i | 0 <= i < |a.entries|
      ensures p[i] == a.entries[i]
    {
      assert p[..|a.entries|][i] == a.entries[i];
    }
  }

  /** A transfer that passes its checks submits the payer with a debit and the
      payee with a credit as one pair. */
  lemma TransferSubmits(s: Store, fromNo: int, toNo: int, amount: int)
    requires Serviceable(s, fromNo) && Serviceable(s, toNo)
    requires Transfer(s, fromNo, toNo, amount).result.Ok?
    ensures fromNo in s.accounts && toNo in s.accounts
    ensures var debited := AddTransaction(s.accounts[fromNo], Debit, amount);
            var credited := AddTransaction(s.accounts[toNo], Credit, amount);
            && Submittable(s, debited) && Submittable(s, credited)
            && UpdatePair(s, debited, credited).result.Ok?
            && Transfer(s, fromNo, toNo, amount).store == UpdatePair(s, debited, credited).store
  {
    AddTransactionLeavesOneToStamp(s.accounts[fromNo], Debit, amount);
    AddTransactionLeavesOneToStamp(s.accounts[toNo], Credit, amount);
  }

  /** The store a successful transfer between two different accounts leaves: the
      lower-numbered account is posted first and takes the next transaction id,
      the other account takes the one after; two ids are consumed. */
  function Transferred(s: Store, fromNo: int, toNo: int, amount: int): Store
    requires fromNo in s.accounts && toNo in s.accounts
  {
    var t := s.transactionCounter;
    var debitAt := if fromNo < toNo then t else t + 1;
    var creditAt := if fromNo < toNo then t + 1 else t;
    Store(s.accounts[fromNo := Posted(s.accounts[fromNo], Debit, amount, debitAt)]
                    [toNo := Posted(s.accounts[toNo], Credit, amount, creditAt)],
          s.accountCounter, t + 2)
  }

  /** Stamping the payer's debit and the payee's credit, built from two fully
      stamped accounts, from the given counters posts them; each leaves one entry
      to stamp. */
  lemma PostingsStamp(s: Store, fromNo: int, toNo: int, amount: int, debitAt: nat, creditAt: nat)
    requires Serviceable(s, fromNo) && Serviceable(s, toNo)
    requires fromNo in s.accounts && toNo in s.accounts
    ensures var debited := AddTransaction(s.accounts[fromNo], Debit, amount);
            var credited := AddTransaction(s.accounts[toNo], Credit, amount);
            && TrailingRun(debited.entries) == 1 && TrailingRun(credited.entries) == 1
            && debited.(entries := AssignIds(debited.entries, debitAt)) == Posted(s.accounts[fromNo], Debit, amount, debitAt)
            && credited.(entries := AssignIds(credited.entries, creditAt)) == Posted(s.accounts[toNo], Credit, amount, creditAt)
  {
    AddTransactionLeavesOneToStamp(s.accounts[fromNo], Debit, amount);
    AddTransactionLeavesOneToStamp(s.accounts[toNo], Credit, amount);
    StampedPosting(s.accounts[fromNo], Debit, amount, debitAt);
    StampedPosting(s.accounts[toNo], Credit, amount, creditAt);
  }

  /** The posted store written out for given ids of the debit and the credit. */
  lemma TransferredInOrder(s: Store, fromNo: int, toNo: int, amount: int, debitAt: nat, creditAt: nat)
    requires fromNo in s.accounts && toNo in s.accounts
    requires fromNo < toNo ==> debitAt == s.transactionCounter && creditAt == s.transactionCounter + 1
    requires toNo <= fromNo ==> debitAt == s.transactionCounter + 1 && creditAt == s.transactionCounter
    ensures Transferred(s, fromNo, toNo, amount)
            == Store(s.accounts[fromNo := Posted(s.accounts[fromNo], Debit, amount, debitAt)]
                               [toNo := Posted(s.accounts[toNo], Credit, amount, creditAt)],
                     s.accountCounter, s.transactionCounter + 2)
  {
  }

  /** Stamping a posting onto a fully stamped account from the store's counter
      posts it with the next id. */
  lemma StampedPostingFrom(s: Store, a: Account, kind: TransactionType, amount: int)
    requires Identified(a.entries)
    ensures Stamped(s, AddTransaction(a, kind, amount)) == Posted(a, kind, amount, s.transactionCounter)
  {
    StampedPosting(a, kind, amount, s.transactionCounter);
  }

  /** The same after one further id has been handed out. */
  lemma RestampedPostingFrom(s: Store, a: Account, kind: TransactionType, amount: int)
    requires Identified(a.entries)
    ensures Restamped(s, AddTransaction(a, kind, amount), 1) == Posted(a, kind, amount, s.transactionCounter + 1)
  {
    var c := AddTransaction(a, kind, amount);
    assert Restamped(s, c, 1) == c.(entries := AssignIds(c.entries, s.transactionCounter + 1));
    StampedPosting(a, kind, amount, s.transactionCounter + 1);
  }

  /** Stamping the payer's debit and the payee's credit, the lower-numbered one
      first, gives the posted store. */
  lemma StampedPairAscending(s: Store, fromNo: int, toNo: int, amount: int)
    requires Serviceable(s, fromNo) && Serviceable(s, toNo)
    requires fromNo in s.accounts && toNo in s.accounts && fromNo < toNo
    ensures Store(s.accounts[fromNo := Stamped(s, AddTransaction(s.accounts[fromNo], Debit, amount))]
                            [toNo := Restamped(s, AddTransaction(s.accounts[toNo], Credit, amount), 1)],
                  s.accountCounter, s.transactionCounter + 2)
            == Transferred(s, fromNo, toNo, amount)
  {
    var t := s.transactionCounter;
    StampedPostingFrom(s, s.accounts[fromNo], Debit, amount);
    RestampedPostingFrom(s, s.accounts[toNo], Credit, amount);
    TransferredInOrder(s, fromNo, toNo, amount, t, t + 1);
  }

  /** The same with the payer number higher: the payee is stamped first. */
  lemma StampedPairDescending(s: Store, fromNo: int, toNo: int, amount: int)
    requires Serviceable(s, fromNo) && Serviceable(s, toNo)
    requires fromNo in s.accounts && toNo in s.accounts && toNo < fromNo
    ensures Store(s.accounts[toNo := Stamped(s, AddTransaction(s.accounts[toNo], Credit, amount))]
                            [fromNo := Restamped(s, AddTransaction(s.accounts[fromNo], Debit, amount), 1)],
                  s.accountCounter, s.transactionCounter + 2)
            == Transferred(s, fromNo, toNo, amount)
  {
    var t := s.transactionCounter;
    StampedPostingFrom(s, s.accounts[toNo], Credit, amount);
    RestampedPostingFrom(s, s.accounts[fromNo], Debit, amount);
    SwapWrites(s.accounts, toNo, Posted(s.accounts[toNo], Credit, amount, t),
               fromNo, Posted(s.accounts[fromNo], Debit, amount, t + 1));
    TransferredInOrder(s, fromNo, toNo, amount, t + 1, t);
  }

  lemma TransferWritesAscending(s: Store, fromNo: int, toNo: int, amount: int)
    requires Serviceable(s, fromNo) && Serviceable(s, toNo)
    requires fromNo < toNo
    requires Transfer(s, fromNo, toNo, amount).result.Ok?
    ensures fromNo in s.accounts && toNo in s.accounts
    ensures Transfer(s, fromNo, toNo, amount).store == Transferred(s, fromNo, toNo, amount)
  {
    TransferSubmits(s, fromNo, toNo, amount);
    var debited := AddTransaction(s.accounts[fromNo], Debit, amount);
    var credited := AddTransaction(s.accounts[toNo], Credit, amount);
    AddTransactionLeavesOneToStamp(s.accounts[fromNo], Debit, amount);
    AddTransactionLeavesOneToStamp(s.accounts[toNo], Credit, amount);
    PairWritesAscending(s, debited, credited);
    StampedPairAscending(s, fromNo, toNo, amount);
  }

  lemma TransferWritesDescending(s: Store, fromNo: int, toNo: int, amount: int)
    requires Serviceable(s, fromNo) && Serviceable(s, toNo)
    requires toNo < fromNo
    requires Transfer(s, fromNo, toNo, amount).result.Ok?
    ensures fromNo in s.accounts && toNo in s.accounts
    ensures Transfer(s, fromNo, toNo, amount).store == Transferred(s, fromNo, toNo, amount)
  {
    TransferSubmits(s, fromNo, toNo, amount);
    var debited := AddTransaction(s.accounts[fromNo], Debit, amount);
    var credited := AddTransaction(s.accounts[toNo], Credit, amount);
    AddTransactionLeavesOneToStamp(s.accounts[fromNo], Debit, amount);
    AddTransactionLeavesOneToStamp(s.accounts[toNo], Credit, amount);
    PairWritesDescending(s, credited, debited);
    StampedPairDescending(s, fromNo, toNo, amount);
  }

  /** What a successful transfer between two different accounts writes. */
  lemma TransferWrites(s: Store, fromNo: int, toNo: int, amount: int)
    requires Serviceable(s, fromNo) && Serviceable(s, toNo)
    requires fromNo != toNo
    requires Transfer(s, fromNo, toNo, amount).result.Ok?
    ensures fromNo in s.accounts && toNo in s.accounts
    ensures Transfer(s, fromNo, toNo, amount).store == Transferred(s, fromNo, toNo, amount)
  {
    if fromNo < toNo {
      TransferWritesAscending(s, fromNo, toNo, amount);
    } else {
      TransferWritesDescending(s, fromNo, toNo, amount);
    }
  }

  /** The account map after a successful transfer between two different accounts,
      as it bears on balances: the payer moves down by the amount, the payee up by
      it, and no account is added, removed or otherwise changed. */
  predicate MovedAmount(before: map<int, Account>, after: map<int, Account>, fromNo: int, toNo: int, amount: int)
    requires fromNo in before && toNo in before
  {
    && after.Keys == before.Keys
    && (forall n :: n in before && n != fromNo && n != toNo ==> after[n] == before[n])
    && CurrentBalance(after[fromNo]) == CurrentBalance(before[fromNo]) - amount
    && CurrentBalance(after[toNo]) == CurrentBalance(before[toNo]) + amount
    && after[fromNo].overdraftLimit == before[fromNo].overdraftLimit
    && after[toNo].overdraftLimit == before[toNo].overdraftLimit
  }

  /** Writing a posted debit over the payer and a posted credit over the payee, in
      either order, moves the amount between them and changes nothing else; each
      new entry carries the id it was stamped with. */
  lemma TwoPostings(m: map<int, Account>, fromNo: int, toNo: int, amount: int, debitAt: nat, creditAt: nat)
    requires fromNo in m && toNo in m && fromNo != toNo
    ensures var x := Posted(m[fromNo], Debit, amount, debitAt);
            var y := Posted(m[toNo], Credit, amount, creditAt);
            && m[fromNo := x][toNo := y] == m[toNo := y][fromNo := x]
            && MovedAmount(m, m[fromNo := x][toNo := y], fromNo, toNo, amount)
            && LastTransactionId(x) == Some(debitAt + 1)
            && LastTransactionId(y) == Some(creditAt + 1)
  {
    var x := Posted(m[fromNo], Debit, amount, debitAt);
    var y := Posted(m[toNo], Credit, amount, creditAt);
    TwoWritesKeepOthers(m, fromNo, x, toNo, y);
    assert m[fromNo := x][toNo := y] == m[toNo := y][fromNo := x];
  }

  /** The posted store moves the amount from the payer to the payee, and the
      lower-numbered account's new entry has the next id, the other's the one after. */
  lemma TransferredMovesAmount(s: Store, fromNo: int, toNo: int, amount: int)
    requires Serviceable(s, fromNo) && Serviceable(s, toNo)
    requires fromNo in s.accounts && toNo in s.accounts && fromNo != toNo
    ensures MovedAmount(s.accounts, Transferred(s, fromNo, toNo, amount).accounts, fromNo, toNo, amount)
    ensures var after := Transferred(s, fromNo, toNo, amount).accounts;
            var t := s.transactionCounter;
            && after[fromNo].entries != [] && after[toNo].entries != []
            && LastTransactionId(after[fromNo]) == Some(if fromNo < toNo then t + 1 else t + 2)
            && LastTransactionId(after[toNo]) == Some(if fromNo < toNo then t + 2 else t + 1)
  {
    var t := s.transactionCounter;
    TwoPostings(s.accounts, fromNo, toNo, amount, if fromNo < toNo then t else t + 1, if fromNo < toNo then t + 1 else t);
  }

  /** A successful transfer between two different accounts debits the payer and
      credits the payee by the amount, so the sum of their balances is conserved;
      the payer stays within its overdraft limit; no other account changes. */
  lemma TransferMovesAmount(s: Store, fromNo: int, toNo: int, amount: int)
    requires Serviceable(s, fromNo) && Serviceable(s, toNo)
    requires fromNo != toNo
    requires Transfer(s, fromNo, toNo, amount).result.Ok?
    ensures fromNo in s.accounts && toNo in s.accounts
    ensures MovedAmount(s.accounts, Transfer(s, fromNo, toNo, amount).store.accounts, fromNo, toNo, amount)
    ensures var after := Transfer(s, fromNo, toNo, amount).store.accounts;
            && CurrentBalance(after[fromNo]) + CurrentBalance(after[toNo])
               == CurrentBalance(s.accounts[fromNo]) + CurrentBalance(s.accounts[toNo])
            && CurrentBalance(after[fromNo]) >= -after[fromNo].overdraftLimit
  {
    TransferWrites(s, fromNo, toNo, amount);
    TransferredMovesAmount(s, fromNo, toNo, amount);
  }

  /** A successful transfer between two different accounts posts exactly one entry
      on each: the debit on the payer and the credit on the payee, each with the
      id its place in the processing order gives it. */
  lemma TransferPosts(s: Store, fromNo: int, toNo: int, amount: int)
    requires Serviceable(s, fromNo) && Serviceable(s, toNo)
    requires fromNo != toNo
    requires Transfer(s, fromNo, toNo, amount).result.Ok?
    ensures fromNo in s.accounts && toNo in s.accounts
    ensures var after := Transfer(s, fromNo, toNo, amount).store.accounts;
            var t := s.transactionCounter;
            && after[fromNo] == Posted(s.accounts[fromNo], Debit, amount, if fromNo < toNo then t else t + 1)
            && after[toNo] == Posted(s.accounts[toNo], Credit, amount, if fromNo < toNo then t + 1 else t)
  {
    TransferWrites(s, fromNo, toNo, amount);
    TransferredUnfolds(s, fromNo, toNo, amount);
  }

  /** The ids a successful transfer stamps: the lower-numbered account's new entry
      gets the next id and the other account's new entry the one after. */
  lemma TransferIdsLowerFirst(s: Store, fromNo: int, toNo: int, amount: int)
    requires Serviceable(s, fromNo) && Serviceable(s, toNo)
    requires fromNo != toNo
    requires Transfer(s, fromNo, toNo, amount).result.Ok?
    ensures fromNo in s.accounts && toNo in s.accounts
    ensures var r := Transfer(s, fromNo, toNo, amount).store;
            var t := s.transactionCounter;
            && r.transactionCounter == t + 2
            && fromNo in r.accounts && toNo in r.accounts
            && r.accounts[fromNo].entries != [] && r.accounts[toNo].entries != []
            && LastTransactionId(r.accounts[fromNo]) == Some(if fromNo < toNo then t + 1 else t + 2)
            && LastTransactionId(r.accounts[toNo]) == Some(if fromNo < toNo then t + 2 else t + 1)
  {
    TransferWrites(s, fromNo, toNo, amount);
    TransferredMovesAmount(s, fromNo, toNo, amount);
  }

  /** A transfer that passes its own checks ends exactly as the pair update of the
      debited payer and the credited payee ends. */
  lemma TransferIsPairOutcome(s: Store, fromNo: int, toNo: int, amount: int)
    requires Serviceable(s, fromNo) && Serviceable(s, toNo)
    requires fromNo in s.accounts && toNo in s.accounts && Funds(s.accounts[fromNo]) >= amount
    ensures var debited := AddTransaction(s.accounts[fromNo], Debit, amount);
            var credited := AddTransaction(s.accounts[toNo], Credit, amount);
            && Submittable(s, debited) && Submittable(s, credited)
            && Transfer(s, fromNo, toNo, amount).store == UpdatePair(s, debited, credited).store
            && (Transfer(s, fromNo, toNo, amount).result.Ok? <==> UpdatePair(s, debited, credited).result.Ok?)
  {
    AddTransactionLeavesOneToStamp(s.accounts[fromNo], Debit, amount);
    AddTransactionLeavesOneToStamp(s.accounts[toNo], Credit, amount);
  }

  /** On a valid store, a debit on one account and a credit on another, both built
      from the stored versions, are accepted as a pair. */
  lemma PostingsAccepted(s: Store, fromNo: int, toNo: int, amount: int)
    requires Valid(s) && Serviceable(s, fromNo) && Serviceable(s, toNo)
    requires fromNo in s.accounts && toNo in s.accounts && fromNo != toNo
    ensures var debited := AddTransaction(s.accounts[fromNo], Debit, amount);
            var credited := AddTransaction(s.accounts[toNo], Credit, amount);
            && Submittable(s, debited) && Submittable(s, credited)
            && UpdatePair(s, debited, credited).result.Ok?
  {
    var from := s.accounts[fromNo];
    var to := s.accounts[toNo];
    var debited := AddTransaction(from, Debit, amount);
    var credited := AddTransaction(to, Credit, amount);
    AddTransactionLeavesOneToStamp(from, Debit, amount);
    AddTransactionLeavesOneToStamp(to, Credit, amount);
    UpdatePairAcceptsIff(s, debited, credited);
    assert debited.entries[|from.entries| - 1] == from.entries[|from.entries| - 1];
    assert credited.entries[|to.entries| - 1] == to.entries[|to.entries| - 1];
  }

  /** On a valid store, a debit and a credit built from the same stored account
      cannot both be accepted: the first leg stamps the debit with a new id, and the
      credit, built before that, does not carry it. */
  lemma SelfPostingsRejected(s: Store, n: int, amount: int)
    requires Valid(s) && Serviceable(s, n) && n in s.accounts
    ensures var a := s.accounts[n];
            var debited := AddTransaction(a, Debit, amount);
            var credited := AddTransaction(a, Credit, amount);
            && Submittable(s, debited) && Submittable(s, credited)
            && UpdatePair(s, debited, credited).result == Err(Conflict)
            && UpdatePair(s, debited, credited).store.transactionCounter == s.transactionCounter + 2
  {
    var a := s.accounts[n];
    var es := a.entries;
    var debited := AddTransaction(a, Debit, amount);
    var credited := AddTransaction(a, Credit, amount);
    AddTransactionLeavesOneToStamp(a, Debit, amount);
    AddTransactionLeavesOneToStamp(a, Credit, amount);
    assert Lower(debited, credited) == debited && Higher(debited, credited) == credited;
    ValidAnchorIssued(s, n);
    UpdateAcceptsIff(s, debited);
    assert debited.entries[|es| - 1] == es[|es| - 1];
    var first := Update(s, debited);
    var t := s.transactionCounter;
    assert LastTransactionId(first.store.accounts[n]) == Some(t + 1);
    UpdateAcceptsIff(first.store, credited);
    forall i | 0 <= i < |credited.entries|
      ensures credited.entries[i].id != Some(t + 1)
    {
      if i < |es| {
        assert credited.entries[i] == es[i];
      }
    }
  }

  /** With a valid store, a transfer succeeds exactly when both accounts exist, the
      payer's funds cover the amount and the two accounts are different. A transfer
      from an account to itself that passes the checks ends in Conflict, with every
      account as it was; the two ids its legs stamped stay consumed. */
  lemma TransferOutcome(s: Store, fromNo: int, toNo: int, amount: int)
    requires Valid(s) && Serviceable(s, fromNo) && Serviceable(s, toNo)
    ensures Transfer(s, fromNo, toNo, amount).result.Ok? <==>
              && fromNo in s.accounts && toNo in s.accounts
              && Funds(s.accounts[fromNo]) >= amount
              && fromNo != toNo
    ensures fromNo == toNo && fromNo in s.accounts && Funds(s.accounts[fromNo]) >= amount ==>
              && Transfer(s, fromNo, toNo, amount).result == Err(Conflict)
              && Transfer(s, fromNo, toNo, amount).store.accounts == s.accounts
              && Transfer(s, fromNo, toNo, amount).store.transactionCounter == s.transactionCounter + 2
  {
    if fromNo in s.accounts && toNo in s.accounts && Funds(s.accounts[fromNo]) >= amount {
      TransferIsPairOutcome(s, fromNo, toNo, amount);
      if fromNo != toNo {
        PostingsAccepted(s, fromNo, toNo, amount);
      } else {
        SelfPostingsRejected(s, fromNo, amount);
      }
    }
  }

  /** What holds of every store the service builds from the initial one: it is
      valid, and every account has at least one entry and a balance chain in which
      each entry's balance follows from the one before. */
  predicate Healthy(s: Store) {
    && Valid(s)
    && forall n :: n in s.accounts ==> s.accounts[n].entries != [] && Consistent(s.accounts[n].entries)
  }

  /** A healthy store can serve a transfer from or to any number. */
  lemma HealthyServiceable(s: Store, n: int)
    requires Healthy(s)
    ensures Serviceable(s, n)
  {
  }

  lemma InitialHealthy()
    ensures Healthy(Initial())
  {
  }

  /** Opening an account keeps the store healthy. */
  lemma CreateAccountPreservesHealthy(s: Store, name: Option<string>, overdraftLimit: int, deposit: int)
    requires Healthy(s)
    ensures Healthy(CreateAccount(s, name, overdraftLimit, deposit).store)
  {
    if deposit > 0 {
      var r := CreateAccount(s, name, overdraftLimit, deposit);
      OpenedValid(s, name, overdraftLimit, deposit);
      OpenedConsistent(s, name, overdraftLimit, deposit);
      AddedKeepsHealthy(s, r.store, s.accountCounter + 1, r.result.value);
    }
  }

  /** Opening an account with a positive deposit keeps a valid store valid. */
  lemma OpenedValid(s: Store, name: Option<string>, overdraftLimit: int, deposit: int)
    requires Valid(s) && deposit > 0
    ensures Valid(CreateAccount(s, name, overdraftLimit, deposit).store)
  {
    OpeningStampable(s, name, overdraftLimit, deposit);
    CreateThenGet(s, Opening(name, overdraftLimit, deposit));
    assert CreateAccount(s, name, overdraftLimit, deposit) == Create(s, Opening(name, overdraftLimit, deposit));
  }

  /** The opening candidate's only entry is the one to stamp. */
  lemma OpeningStampable(s: Store, name: Option<string>, overdraftLimit: int, deposit: int)
    requires deposit > 0
    ensures Stampable(s, Opening(name, overdraftLimit, deposit))
  {
    var es := Opening(name, overdraftLimit, deposit).entries;
    assert es[..|es| - 1] == [];
    assert TrailingRun(es) == 1;
  }

  /** The account opened with a positive deposit has one entry, whose balance is
      the deposit. */
  lemma OpenedConsistent(s: Store, name: Option<string>, overdraftLimit: int, deposit: int)
    requires deposit > 0
    ensures var a := CreateAccount(s, name, overdraftLimit, deposit).result.value;
            a.entries != [] && Consistent(a.entries)
  {
    var es := CreateAccount(s, name, overdraftLimit, deposit).result.value.entries;
    assert Prior(es, 0) == 0;
  }

  /** A valid store that adds one non-empty, consistent account to a healthy store
      is healthy. */
  lemma AddedKeepsHealthy(s: Store, t: Store, n: int, a: Account)
    requires Healthy(s) && Valid(t) && t.accounts == s.accounts[n := a]
    requires a.entries != [] && Consistent(a.entries)
    ensures Healthy(t)
  {
    forall k | k in t.accounts
      ensures t.accounts[k].entries != [] && Consistent(t.accounts[k].entries)
    {
      if k != n {
        assert t.accounts[k] == s.accounts[k];
      }
    }
  }

  /** Replacing one account of a healthy store by a healthy version of it, with the
      transaction counter moved on to cover its ids, keeps the store healthy. */
  lemma WriteKeepsHealthy(s: Store, n: int, a: Account, later: nat)
    requires Healthy(s) && n in s.accounts && s.transactionCounter <= later
    requires a.number == Some(n) && a.entries != [] && Consistent(a.entries)
    requires IdsIssued(a.entries, later)
    ensures Healthy(Store(s.accounts[n := a], s.accountCounter, later))
  {
    forall k | k in s.accounts
      ensures IdsIssued(s.accounts[k].entries, later)
    {
      IdsIssuedMonotone(s.accounts[k].entries, s.transactionCounter, later);
    }
  }

  /** A posting on an account with a consistent balance chain and ids issued up to
      `issued`, stamped from a counter at or past that, keeps the chain consistent
      and has its ids issued once the counter passes the id it takes. */
  lemma PostedHealthy(a: Account, kind: TransactionType, amount: int, issued: nat, counter: nat, later: nat)
    requires Consistent(a.entries) && IdsIssued(a.entries, issued)
    requires issued <= counter < later
    ensures var p := Posted(a, kind, amount, counter);
            && p.number == a.number && p.entries != [] && Consistent(p.entries)
            && IdsIssued(p.entries, later)
  {
    PostedKeepsConsistent(a, kind, amount, counter);
    IdsIssuedMonotone(a.entries, issued, counter);
    PostedIssued(a, kind, amount, counter, later);
  }

  /** Replacing two different accounts of a healthy store by healthy versions of
      them whose ids are issued up to two past the counter, and moving the counter
      on by two, keeps the store healthy. */
  lemma TwoWritesKeepHealthy(s: Store, a: int, x: Account, b: int, y: Account)
    requires Healthy(s) && a in s.accounts && b in s.accounts && a != b
    requires x.number == Some(a) && x.entries != [] && Consistent(x.entries)
    requires y.number == Some(b) && y.entries != [] && Consistent(y.entries)
    requires IdsIssued(x.entries, s.transactionCounter + 2) && IdsIssued(y.entries, s.transactionCounter + 2)
    ensures Healthy(Store(s.accounts[a := x][b := y], s.accountCounter, s.transactionCounter + 2))
  {
    WriteKeepsHealthy(s, a, x, s.transactionCounter + 2);
    WriteKeepsHealthy(Store(s.accounts[a := x], s.accountCounter, s.transactionCounter + 2), b, y, s.transactionCounter + 2);
  }

  /** Posting the debit and the credit, each stamped from the counter or the id
      after it, keeps a healthy store healthy. */
  lemma PostingsKeepHealthy(s: Store, fromNo: int, toNo: int, amount: int, debitAt: nat, creditAt: nat)
    requires Healthy(s) && fromNo in s.accounts && toNo in s.accounts && fromNo != toNo
    requires s.transactionCounter <= debitAt <= s.transactionCounter + 1
    requires s.transactionCounter <= creditAt <= s.transactionCounter + 1
    ensures var m := s.accounts;
            Healthy(Store(m[fromNo := Posted(m[fromNo], Debit, amount, debitAt)]
                           [toNo := Posted(m[toNo], Credit, amount, creditAt)],
                          s.accountCounter, s.transactionCounter + 2))
  {
    var m := s.accounts;
    var t := s.transactionCounter;
    PostedHealthy(m[fromNo], Debit, amount, t, debitAt, t + 2);
    PostedHealthy(m[toNo], Credit, amount, t, creditAt, t + 2);
    TwoWritesKeepHealthy(s, fromNo, Posted(m[fromNo], Debit, amount, debitAt), toNo, Posted(m[toNo], Credit, amount, creditAt));
  }

  lemma TransferredHealthyAscending(s: Store, fromNo: int, toNo: int, amount: int)
    requires Healthy(s) && fromNo in s.accounts && toNo in s.accounts && fromNo < toNo
    ensures Healthy(Transferred(s, fromNo, toNo, amount))
  {
    PostingsKeepHealthy(s, fromNo, toNo, amount, s.transactionCounter, s.transactionCounter + 1);
    TransferredUnfolds(s, fromNo, toNo, amount);
  }

  lemma TransferredHealthyDescending(s: Store, fromNo: int, toNo: int, amount: int)
    requires Healthy(s) && fromNo in s.accounts && toNo in s.accounts && toNo < fromNo
    ensures Healthy(Transferred(s, fromNo, toNo, amount))
  {
    PostingsKeepHealthy(s, fromNo, toNo, amount, s.transactionCounter + 1, s.transactionCounter);
    TransferredUnfolds(s, fromNo, toNo, amount);
  }

  /** The posted store of a healthy store is healthy. */
  lemma TransferredHealthy(s: Store, fromNo: int, toNo: int, amount: int)
    requires Healthy(s) && fromNo in s.accounts && toNo in s.accounts && fromNo != toNo
    ensures Healthy(Transferred(s, fromNo, toNo, amount))
  {
    if fromNo < toNo {
      TransferredHealthyAscending(s, fromNo, toNo, amount);
    } else {
      TransferredHealthyDescending(s, fromNo, toNo, amount);
    }
  }

  lemma TransferredUnfolds(s: Store, fromNo: int, toNo: int, amount: int)
    requires fromNo in s.accounts && toNo in s.accounts
    ensures var m := s.accounts;
            var t := s.transactionCounter;
            Transferred(s, fromNo, toNo, amount)
            == Store(m[fromNo := Posted(m[fromNo], Debit, amount, if fromNo < toNo then t else t + 1)]
                      [toNo := Posted(m[toNo], Credit, amount, if fromNo < toNo then t + 1 else t)],
                     s.accountCounter, t + 2)
  {
  }

  /** A transfer, successful or not, keeps a healthy store healthy. */
  lemma TransferPreservesHealthy(s: Store, fromNo: int, toNo: int, amount: int)
    requires Healthy(s)
    ensures Serviceable(s, fromNo) && Serviceable(s, toNo)
    ensures Healthy(Transfer(s, fromNo, toNo, amount).store)
  {
    HealthyServiceable(s, fromNo);
    HealthyServiceable(s, toNo);
    var r := Transfer(s, fromNo, toNo, amount);
    if r.result.Err? {
      ValidUnderCounterAdvance(s, r.store);
    } else {
      TransferOutcome(s, fromNo, toNo, amount);
      TransferWrites(s, fromNo, toNo, amount);
      TransferredHealthy(s, fromNo, toNo, amount);
    }
  }

  /** Every account is at or above minus its overdraft limit. */
  predicate WithinLimits(m: map<int, Account>) {
    forall n :: n in m ==> CurrentBalance(m[n]) >= -m[n].overdraftLimit
  }

  /** As written, a transfer of a negative amount passes the funds check (any
      account within its limit has funds of at least zero), and the payee's
      credit of that negative amount takes it below its overdraft limit whenever
      the amount exceeds the payee's own funds. */
  lemma NegativeTransferOverdrawsPayee(s: Store, fromNo: int, toNo: int, amount: int)
    requires Healthy(s) && WithinLimits(s.accounts)
    requires fromNo in s.accounts && toNo in s.accounts && fromNo != toNo
    requires amount < 0 && Funds(s.accounts[toNo]) + amount < 0
    ensures Serviceable(s, fromNo) && Serviceable(s, toNo)
    ensures var r := Transfer(s, fromNo, toNo, amount);
            && r.result.Ok?
            && !WithinLimits(r.store.accounts)
            && CurrentBalance(r.store.accounts[toNo]) < -r.store.accounts[toNo].overdraftLimit
  {
    HealthyServiceable(s, fromNo);
    HealthyServiceable(s, toNo);
    TransferOutcome(s, fromNo, toNo, amount);
    TransferMovesAmount(s, fromNo, toNo, amount);
  }

  /** With the amount checked, a transfer keeps every account within its overdraft
      limit: the payer by the funds check, the payee because a positive credit only
      raises its balance, and every other account because it is untouched. */
  lemma TransferCheckedKeepsWithinLimits(s: Store, fromNo: int, toNo: int, amount: int)
    requires Healthy(s) && WithinLimits(s.accounts)
    ensures Serviceable(s, fromNo) && Serviceable(s, toNo)
    ensures WithinLimits(TransferChecked(s, fromNo, toNo, amount).store.accounts)
  {
    HealthyServiceable(s, fromNo);
    HealthyServiceable(s, toNo);
    var r := TransferChecked(s, fromNo, toNo, amount);
    if r.result.Ok? {
      TransferOutcome(s, fromNo, toNo, amount);
      TransferMovesAmount(s, fromNo, toNo, amount);
      var after := r.store.accounts;
      forall n | n in after
        ensures CurrentBalance(after[n]) >= -after[n].overdraftLimit
      {
        if n != fromNo && n != toNo {
          assert after[n] == s.accounts[n];
        }
      }
    }
  }
}

=== FILE: store.dfy ===
/** The in-memory account store: a map from account number to account and two
    counters, one for account numbers and one for transaction ids. Every operation
    is one atomic step from a store to a new store and a result. */
module AccountStore {
  import opened Ledger
  import opened TransactionIds

  datatype Error = NotFound | Conflict | InvalidArgument | InsufficientFunds

  datatype Result<+T> = Ok(value: T) | Err(error: Error)

  datatype Store = Store(accounts: map<int, Account>, accountCounter: nat, transactionCounter: nat)

  /** The store after an operation together with what the operation returned. */
  datatype Step<+T> = Step(store: Store, result: Result<T>)

  /** Every stored account sits under the number it carries, that number has been
      allocated, and its entries hold issued ids in increasing order. */
  predicate Valid(s: Store) {
    forall n :: n in s.accounts ==>
      && 1 <= n <= s.accountCounter
      && s.accounts[n].number == Some(n)
      && IdsIssued(s.accounts[n].entries, s.transactionCounter)
  }

  /** A candidate whose stamped entries hold issued ids and whose unstamped entries
      form the trailing run. */
  predicate Stampable(s: Store, c: Account) {
    && WellFormed(c.entries)
    && IdsIssued(c.entries[..|c.entries| - TrailingRun(c.entries)], s.transactionCounter)
  }

  /** What an update needs so that it does not fail outright: a number, an account
      stored under it that has at least one entry, and unstamped entries only at
      the end. */
  predicate Submittable(s: Store, c: Account) {
    && c.number.Some?
    && c.number.value in s.accounts
    && s.accounts[c.number.value].entries != []
    && WellFormed(c.entries)
  }

  /** The state after the test reset: no accounts, both counters at zero. */
  function Initial(): (s: Store)
    ensures Valid(s)
    ensures |s.accounts| == 0
  {
    Store(map[], 0, 0)
  }

  /** The candidate with its entries stamped from the transaction counter. */
  function Stamped(s: Store, c: Account): Account {
    c.(entries := AssignIds(c.entries, s.transactionCounter))
  }

  /** The candidate with its entries stamped after `used` further ids have been
      handed out. */
  function Restamped(s: Store, c: Account, used: nat): Account {
    c.(entries := AssignIds(c.entries, s.transactionCounter + used))
  }

  /** Stamping from a store whose counter has moved on by `used` is restamping. */
  lemma StampedAfter(s: Store, t: Store, c: Account, used: nat)
    requires t.transactionCounter == s.transactionCounter + used
    ensures Stamped(t, c) == Restamped(s, c, used)
  {
  }

  /** Stores the candidate under the next account number, whatever number it
      carried, with its trailing unstamped entries stamped. */
  function Create(s: Store, candidate: Account): (r: Step<Account>)
    ensures r.result.Ok?
    ensures r.result.value.number == Some(s.accountCounter + 1)
    ensures r.result.value.customerName == candidate.customerName
    ensures r.result.value.overdraftLimit == candidate.overdraftLimit
    ensures r.result.value.entries == AssignIds(candidate.entries, s.transactionCounter)
    ensures r.store.accounts == s.accounts[s.accountCounter + 1 := r.result.value]
    ensures r.store.accountCounter == s.accountCounter + 1
    ensures r.store.transactionCounter == s.transactionCounter + TrailingRun(candidate.entries)
  {
    var n := s.accountCounter + 1;
    var created := Stamped(s, candidate).(number := Some(n));
    var next := s.transactionCounter + TrailingRun(candidate.entries);
    Step(Store(s.accounts[n := created], n, next), Ok(created))
  }

  /** The account stored under `n`, or NotFound. */
  function Get(s: Store, n: int): (r: Result<Account>)
    ensures r.Ok? <==> n in s.accounts
    ensures r.Ok? ==> r.value == s.accounts[n]
    ensures r.Err? ==> r.error == NotFound
  {
    if n in s.accounts then Ok(s.accounts[n]) else Err(NotFound)
  }

  /** Publishes the stamped candidate, then keeps it only if it carries the id of
      the newest entry of the account it replaced; otherwise the replaced account is
      put back and the update fails with Conflict. The ids stamped stay consumed. */
  function Update(s: Store, candidate: Account): (r: Step<Account>)
    requires Submittable(s, candidate)
    ensures r.store.accountCounter == s.accountCounter
    ensures r.store.transactionCounter == s.transactionCounter + TrailingRun(candidate.entries)
    ensures var n := candidate.number.value;
            r.result.Ok? <==> Carries(Stamped(s, candidate).entries, LastTransactionId(s.accounts[n]))
    ensures r.result.Ok? ==>
              && r.result.value == Stamped(s, candidate)
              && r.store.accounts == s.accounts[candidate.number.value := r.result.value]
    ensures r.result.Err? ==> r.result == Err(Conflict) && r.store.accounts == s.accounts
  {
    var n := candidate.number.value;
    var stamped := Stamped(s, candidate);
    var previous := s.accounts[n];
    var published :=
      Store(s.accounts[n := stamped], s.accountCounter,
            s.transactionCounter + TrailingRun(candidate.entries));
    if Carries(stamped.entries, LastTransactionId(previous)) then
      Step(published, Ok(stamped))
    else
      assert published.accounts[n := previous] == s.accounts;
      Step(published.(accounts := published.accounts[n := previous]), Err(Conflict))
  }

  /** The backward scan for the anchor id, newest entry first. */
  method FindAnchor(es: seq<Entry>, anchor: Option<int>) returns (found: bool)
    ensures found <==> Carries(es, anchor)
  {
    var i := |es| - 1;
    while i >= 0
      invariant -1 <= i < |es|
      invariant forall j :: i < j < |es| ==> es[j].id != anchor
    {
      if es[i].id == anchor {
        return true;
      }
      i := i - 1;
    }
    return false;
  }

  /** Of the two candidates, the one with the lower number; ties go to the left one. */
  function Lower(left: Account, right: Account): (a: Account)
    requires left.number.Some? && right.number.Some?
    ensures a == left || a == right
    ensures a.number.value <= left.number.value && a.number.value <= right.number.value
    ensures left.number.value <= right.number.value ==> a == left
  {
    if left.number.value > right.number.value then right else left
  }

  /** Of the two candidates, the one with the higher number; ties go to the right one. */
  function Higher(left: Account, right: Account): (a: Account)
    requires left.number.Some? && right.number.Some?
    ensures a == left || a == right
    ensures a.number.value >= left.number.value && a.number.value >= right.number.value
    ensures left.number.value <= right.number.value ==> a == right
  {
    if left.number.value > right.number.value then left else right
  }

  /** The order the two legs are processed in does not depend on which side of the
      pair each account is on. */
  lemma LegOrderIgnoresSides(left: Account, right: Account)
    requires left.number.Some? && right.number.Some?
    requires left.number != right.number
    ensures Lower(left, right) == Lower(right, left)
    ensures Higher(left, right) == Higher(right, left)
    ensures Lower(left, right) != Higher(left, right)
  {
  }

  /** Putting back the value a key held undoes overwriting it. */
  lemma RestoreUndoes(m: map<int, Account>, n: int, a: Account)
    requires n in m
    ensures m[n := a][n := m[n]] == m
  {
  }

  /** Updates `first`, then `second`; if the second leg conflicts the first is
      rolled back, so on any failure both accounts are as before. */
  function UpdateInOrder(s: Store, first: Account, second: Account): (r: Step<(Account, Account)>)
    requires Submittable(s, first) && Submittable(s, second)
    ensures r.store.accountCounter == s.accountCounter
    ensures r.store.transactionCounter >= s.transactionCounter
    ensures Update(s, first).result.Err? ==>
              r.store.transactionCounter == s.transactionCounter + TrailingRun(first.entries)
    ensures Update(s, first).result.Ok? ==>
              r.store.transactionCounter
              == s.transactionCounter + TrailingRun(first.entries) + TrailingRun(second.entries)
    ensures r.result.Err? ==> r.result == Err(Conflict) && r.store.accounts == s.accounts
    ensures r.result.Ok? ==>
              && r.result.value.0 == Stamped(s, first)
              && r.result.value.1 == Restamped(s, second, TrailingRun(first.entries))
              && r.store.accounts == s.accounts[first.number.value := r.result.value.0][second.number.value := r.result.value.1]
              && r.store.transactionCounter
                 == s.transactionCounter + TrailingRun(first.entries) + TrailingRun(second.entries)
  {
    var rollback := s.accounts[first.number.value];
    var a := Update(s, first);
    if a.result.Err? then
      Step(a.store, Err(Conflict))
    else
      var b := Update(a.store, second);
      if b.result.Err? then
        RestoreUndoes(s.accounts, first.number.value, a.result.value);
        Step(b.store.(accounts := b.store.accounts[first.number.value := rollback]), Err(Conflict))
      else
        StampedAfter(s, a.store, second, TrailingRun(first.entries));
        Step(b.store, Ok((a.result.value, b.result.value)))
  }

  /** Updates two accounts as one: the lower-numbered one first, then the other,
      with the first rolled back if the second conflicts. The results come back in
      the caller's left/right order. */
  function UpdatePair(s: Store, left: Account, right: Account): (r: Step<(Account, Account)>)
    requires Submittable(s, left) && Submittable(s, right)
    ensures r.store.accountCounter == s.accountCounter
    ensures r.store.transactionCounter >= s.transactionCounter
    ensures Update(s, Lower(left, right)).result.Err? ==>
              r.store.transactionCounter == s.transactionCounter + TrailingRun(Lower(left, right).entries)
    ensures Update(s, Lower(left, right)).result.Ok? ==>
              r.store.transactionCounter
              == s.transactionCounter + TrailingRun(left.entries) + TrailingRun(right.entries)
    ensures r.result.Err? ==> r.result == Err(Conflict) && r.store.accounts == s.accounts
    ensures r.result.Ok? ==>
              && r.result.value.0.number == left.number
              && r.result.value.1.number == right.number
    ensures r.result.Ok? && left.number.value <= right.number.value ==>
              && r.result.value.0 == Stamped(s, left)
              && r.result.value.1 == Restamped(s, right, TrailingRun(left.entries))
    ensures r.result.Ok? && left.number.value > right.number.value ==>
              && r.result.value.1 == Stamped(s, right)
              && r.result.value.0 == Restamped(s, left, TrailingRun(right.entries))
    ensures r.result.Ok? ==>
              && r.store.accounts
                 == s.accounts[Lower(left, right).number.value := Stamped(s, Lower(left, right))]
                              [Higher(left, right).number.value := Restamped(s, Higher(left, right), TrailingRun(Lower(left, right).entries))]
              && r.store.transactionCounter
                 == s.transactionCounter + TrailingRun(left.entries) + TrailingRun(right.entries)
  {
    if left.number.value > right.number.value then
      assert Lower(left, right) == right && Higher(left, right) == left;
      var u := UpdateInOrder(s, right, left);
      if u.result.Err? then u else Step(u.store, Ok((u.result.value.1, u.result.value.0)))
    else
      assert Lower(left, right) == left && Higher(left, right) == right;
      UpdateInOrder(s, left, right)
  }
}

=== FILE: store_properties.dfy ===
/** Properties of the account store that relate several operations, or that hold
    only for stores the operations themselves produce. */
module StoreProperties {
  import opened Ledger
  import opened TransactionIds
  import opened AccountStore

  /** The newest id of the stored account is an id already handed out, so it cannot
      be one of the ids about to be stamped. */
  predicate AnchorIssued(s: Store, n: int)
    requires n in s.accounts && s.accounts[n].entries != []
  {
    var anchor := LastTransactionId(s.accounts[n]);
    anchor.Some? && anchor.value <= s.transactionCounter
  }

  lemma ValidAnchorIssued(s: Store, n: int)
    requires Valid(s) && n in s.accounts && s.accounts[n].entries != []
    ensures AnchorIssued(s, n)
  {
    var es := s.accounts[n].entries;
    assert es[|es| - 1].id.Some?;
  }

  /** When an account has k > 0 entries to stamp, its newest id after stamping is
      the last one handed out, k past the counter. */
  lemma NewestStampedId(c: Account, counter: nat, k: nat)
    requires TrailingRun(c.entries) == k && k > 0
    ensures LastTransactionId(c.(entries := AssignIds(c.entries, counter))) == Some(counter + k)
  {
    var es := c.entries;
    var r := AssignIds(es, counter);
    assert r[|es| - 1] == Stamp(es[|es| - 1], counter + 1 + (|es| - 1) - (|es| - k));
  }

  /** Reading back a created account returns exactly what create returned; its ids
      are fresh, increasing and within the advanced counter; nothing stored before
      is disturbed, and the store stays valid. */
  lemma CreateThenGet(s: Store, c: Account)
    requires Valid(s) && Stampable(s, c)
    ensures var r := Create(s, c);
            && Get(r.store, s.accountCounter + 1) == r.result
            && s.accountCounter + 1 !in s.accounts
            && (forall n :: n in s.accounts ==> Get(r.store, n) == Get(s, n))
            && IdsIssued(r.result.value.entries, r.store.transactionCounter)
            && Valid(r.store)
  {
    var r := Create(s, c);
    AssignIdsIssued(c.entries, s.transactionCounter);
    forall n | n in r.store.accounts
      ensures 1 <= n <= r.store.accountCounter
      ensures r.store.accounts[n].number == Some(n)
      ensures IdsIssued(r.store.accounts[n].entries, r.store.transactionCounter)
    {
    }
  }

  /** The acceptance test, seen from the caller's copy: when the stored account's
      newest id is an issued one, the update succeeds exactly when that id is among
      the ids the candidate already carried, since freshly stamped ids are all newer. */
  lemma UpdateAcceptsIff(s: Store, c: Account)
    requires Submittable(s, c)
    requires AnchorIssued(s, c.number.value)
    ensures Update(s, c).result.Ok? <==> Carries(c.entries, LastTransactionId(s.accounts[c.number.value]))
  {
    var anchor := LastTransactionId(s.accounts[c.number.value]);
    var st := Stamped(s, c).entries;
    var start := |c.entries| - TrailingRun(c.entries);
    if Carries(st, anchor) {
      var i :| 0 <= i < |st| && st[i].id == anchor;
      assert i < start;
      assert c.entries[i] == st[i];
    }
    if Carries(c.entries, anchor) {
      var i :| 0 <= i < |c.entries| && c.entries[i].id == anchor;
      assert st[i] == c.entries[i];
    }
  }

  /** A valid store stays valid under an update of a candidate with issued ids. */
  lemma UpdatePreservesValid(s: Store, c: Account)
    requires Valid(s) && Submittable(s, c) && Stampable(s, c)
    requires c.number.Some?
    ensures Valid(Update(s, c).store)
  {
    var r := Update(s, c);
    if r.result.Ok? {
      AssignIdsIssued(c.entries, s.transactionCounter);
      WriteKeepsValid(s, r.store, c.number.value, r.result.value);
    } else {
      ValidUnderCounterAdvance(s, r.store);
    }
  }

  /** Overwriting a stored account by one under the same number whose ids are
      issued, with the counters moved on, keeps a store valid. */
  lemma WriteKeepsValid(s: Store, t: Store, n: int, a: Account)
    requires Valid(s) && n in s.accounts && a.number == Some(n)
    requires t.accounts == s.accounts[n := a]
    requires t.accountCounter == s.accountCounter && t.transactionCounter >= s.transactionCounter
    requires IdsIssued(a.entries, t.transactionCounter)
    ensures Valid(t)
  {
    forall k | k in t.accounts
      ensures IdsIssued(t.accounts[k].entries, t.transactionCounter)
    {
      if k != n {
        IdsIssuedMonotone(s.accounts[k].entries, s.transactionCounter, t.transactionCounter);
      }
    }
  }

  /** The first of two callers to submit unstamped entries appended to the stored
      account is accepted: the stored account keeps its old entries, gains the new
      ones, and its newest id is the last one handed out. */
  lemma AppendAccepted(s: Store, n: int, extra: seq<Entry>)
    requires Valid(s) && n in s.accounts && s.accounts[n].entries != []
    requires extra != [] && forall i :: 0 <= i < |extra| ==> extra[i].id.None?
    ensures var base := s.accounts[n];
            var c := base.(entries := base.entries + extra);
            && Submittable(s, c)
            && Update(s, c).result.Ok?
            && Update(s, c).store.accounts == s.accounts[n := Stamped(s, c)]
            && Update(s, c).store.transactionCounter == s.transactionCounter + |extra|
            && Stamped(s, c).entries[..|base.entries|] == base.entries
            && |Stamped(s, c).entries| == |base.entries| + |extra|
            && LastTransactionId(Stamped(s, c)) == Some(s.transactionCounter + |extra|)
  {
    var base := s.accounts[n];
    var c := base.(entries := base.entries + extra);
    assert Identified(base.entries);
    TrailingRunOfAppended(base.entries, extra);
    ValidAnchorIssued(s, n);
    assert Carries(c.entries, LastTransactionId(base)) by {
      assert c.entries[|base.entries| - 1] == base.entries[|base.entries| - 1];
    }
    UpdateAcceptsIff(s, c);
    StampAppended(base.entries, extra, s.transactionCounter);
    NewestStampedId(c, s.transactionCounter, |extra|);
  }

  /** A candidate whose stamped ids are all older than the newest id `a` of the
      stored account, an id already handed out, does not carry that id, however many
      entries it adds, so it is rejected and the store keeps what it had. */
  lemma StaleRejected(s: Store, c: Account, a: int)
    requires Submittable(s, c)
    requires LastTransactionId(s.accounts[c.number.value]) == Some(a) && a <= s.transactionCounter
    requires forall i :: 0 <= i < |c.entries| - TrailingRun(c.entries) ==>
               c.entries[i].id.Some? && c.entries[i].id.value < a
    ensures Update(s, c).result == Err(Conflict)
    ensures Update(s, c).store.accounts == s.accounts
  {
    var st := Stamped(s, c).entries;
    forall i | 0 <= i < |st|
      ensures st[i].id != Some(a)
    {
      if i < |c.entries| - TrailingRun(c.entries) {
        assert st[i] == c.entries[i];
      }
    }
  }

  /** Unstamped entries appended to a list of issued ids: every entry before the
      trailing run carries an id older than any id past the counter. */
  lemma AppendedOlder(es: seq<Entry>, extra: seq<Entry>, counter: nat, a: int)
    requires IdsIssued(es, counter) && counter < a
    requires forall i :: 0 <= i < |extra| ==> extra[i].id.None?
    ensures forall i :: 0 <= i < |es + extra| - TrailingRun(es + extra) ==>
              (es + extra)[i].id.Some? && (es + extra)[i].id.value < a
  {
    TrailingRunOfAppended(es, extra);
    forall i | 0 <= i < |es + extra| - TrailingRun(es + extra)
      ensures (es + extra)[i].id.Some? && (es + extra)[i].id.value < a
    {
      assert (es + extra)[i] == es[i];
    }
  }

  /** Two callers read the same account and each append unstamped entries. The one
      that submits first, having appended at least one entry, wins; the other is
      rejected with Conflict and the winner's version stays stored. */
  lemma LostUpdateRejected(s: Store, n: int, winner: seq<Entry>, loser: seq<Entry>)
    requires Valid(s) && n in s.accounts && s.accounts[n].entries != []
    requires winner != [] && forall i :: 0 <= i < |winner| ==> winner[i].id.None?
    requires forall i :: 0 <= i < |loser| ==> loser[i].id.None?
    ensures var base := s.accounts[n];
            var first := base.(entries := base.entries + winner);
            var second := base.(entries := base.entries + loser);
            Submittable(s, first)
            && var w := Update(s, first);
               && w.result.Ok?
               && Submittable(w.store, second)
               && var l := Update(w.store, second);
                  && l.result == Err(Conflict)
                  && l.store.accounts == w.store.accounts
                  && l.store.accounts[n].entries[..|base.entries|] == base.entries
                  && |l.store.accounts[n].entries| == |base.entries| + |winner|
  {
    var base := s.accounts[n];
    var second := base.(entries := base.entries + loser);
    AppendAccepted(s, n, winner);
    var first := base.(entries := base.entries + winner);
    var w := Update(s, first);
    assert second.number.value == n;
    assert w.store.accounts[n] == Stamped(s, first);
    assert w.store.transactionCounter == s.transactionCounter + |winner|;
    assert LastTransactionId(Stamped(s, first)) == Some(w.store.transactionCounter);
    AppendedOlder(base.entries, loser, s.transactionCounter, w.store.transactionCounter);
    StaleRejected(w.store, second, w.store.transactionCounter);
  }

  /** With issued anchors on two different accounts, the pair update succeeds
      exactly when each candidate carries the newest id of its stored account. */
  lemma UpdatePairAcceptsIff(s: Store, left: Account, right: Account)
    requires Valid(s) && Submittable(s, left) && Submittable(s, right)
    requires left.number != right.number
    ensures UpdatePair(s, left, right).result.Ok? <==>
              && Carries(left.entries, LastTransactionId(s.accounts[left.number.value]))
              && Carries(right.entries, LastTransactionId(s.accounts[right.number.value]))
  {
    var lo := Lower(left, right);
    var hi := Higher(left, right);
    ValidAnchorIssued(s, lo.number.value);
    ValidAnchorIssued(s, hi.number.value);
    UpdateAcceptsIff(s, lo);
    var a := Update(s, lo);
    if a.result.Ok? {
      assert a.store.accounts[hi.number.value] == s.accounts[hi.number.value];
      UpdateAcceptsIff(a.store, hi);
    }
  }

  /** Handing out more ids or numbers without touching the map keeps a store valid. */
  lemma ValidUnderCounterAdvance(s: Store, t: Store)
    requires Valid(s)
    requires t.accounts == s.accounts
    requires t.accountCounter >= s.accountCounter && t.transactionCounter >= s.transactionCounter
    ensures Valid(t)
  {
  }

  /** Two updates in a row keep a valid store valid, whether the first one succeeds
      or conflicts. */
  lemma UpdateTwicePreservesValid(s: Store, first: Account, second: Account)
    requires Valid(s) && Submittable(s, first) && Stampable(s, first) && Stampable(s, second)
    requires Submittable(Update(s, first).store, second)
    ensures Valid(Update(Update(s, first).store, second).store)
  {
    UpdatePreservesValid(s, first);
    var a := Update(s, first);
    var prefix := second.entries[..|second.entries| - TrailingRun(second.entries)];
    assert IdsIssued(prefix, s.transactionCounter);
    IdsIssuedMonotone(prefix, s.transactionCounter, a.store.transactionCounter);
    UpdatePreservesValid(a.store, second);
  }

  /** A valid store stays valid under a pair update of candidates with issued ids. */
  lemma UpdatePairPreservesValid(s: Store, left: Account, right: Account)
    requires Valid(s) && Submittable(s, left) && Submittable(s, right)
    requires Stampable(s, left) && Stampable(s, right)
    ensures Valid(UpdatePair(s, left, right).store)
  {
    var r := UpdatePair(s, left, right);
    if r.result.Err? {
      ValidUnderCounterAdvance(s, r.store);
    } else if left.number.value > right.number.value {
      assert r.store == UpdateInOrder(s, right, left).store;
      InOrderIsTwoUpdates(s, right, left);
      UpdateTwicePreservesValid(s, right, left);
    } else {
      assert r.store == UpdateInOrder(s, left, right).store;
      InOrderIsTwoUpdates(s, left, right);
      UpdateTwicePreservesValid(s, left, right);
    }
  }

  /** Both legs accepted, the pair leaves the store the two updates leave. */
  lemma InOrderIsTwoUpdates(s: Store, first: Account, second: Account)
    requires Submittable(s, first) && Submittable(s, second)
    requires UpdateInOrder(s, first, second).result.Ok?
    ensures Submittable(Update(s, first).store, second)
    ensures UpdateInOrder(s, first, second).store == Update(Update(s, first).store, second).store
  {
  }

  /** A successful pair update of two different accounts, given lower number first,
      each with one entry to stamp: the lower one is stamped from the counter, the
      higher one from the id after it, and the counter moves on by two. */
  lemma PairWritesAscending(s: Store, lo: Account, hi: Account)
    requires Submittable(s, lo) && Submittable(s, hi)
    requires lo.number.value < hi.number.value
    requires TrailingRun(lo.entries) == 1 && TrailingRun(hi.entries) == 1
    requires UpdatePair(s, lo, hi).result.Ok?
    ensures UpdatePair(s, lo, hi).store
            == Store(s.accounts[lo.number.value := Stamped(s, lo)]
                               [hi.number.value := hi.(entries := AssignIds(hi.entries, s.transactionCounter + 1))],
                     s.accountCounter, s.transactionCounter + 2)
  {
    assert Lower(lo, hi) == lo && Higher(lo, hi) == hi;
    PairWritesInOrder(s, lo, hi, UpdatePair(s, lo, hi).store);
  }

  /** The same pair given higher number first is processed in the same order. */
  lemma PairWritesDescending(s: Store, lo: Account, hi: Account)
    requires Submittable(s, lo) && Submittable(s, hi)
    requires lo.number.value < hi.number.value
    requires TrailingRun(lo.entries) == 1 && TrailingRun(hi.entries) == 1
    requires UpdatePair(s, hi, lo).result.Ok?
    ensures UpdatePair(s, hi, lo).store
            == Store(s.accounts[lo.number.value := Stamped(s, lo)]
                               [hi.number.value := hi.(entries := AssignIds(hi.entries, s.transactionCounter + 1))],
                     s.accountCounter, s.transactionCounter + 2)
  {
    assert Lower(hi, lo) == lo && Higher(hi, lo) == hi;
    PairWritesInOrder(s, lo, hi, UpdatePair(s, hi, lo).store);
  }

  /** A store that holds the lower account stamped first and the higher one stamped
      after it, with the counter moved on by both runs, is the store written out. */
  lemma PairWritesInOrder(s: Store, lo: Account, hi: Account, t: Store)
    requires lo.number.Some? && hi.number.Some?
    requires TrailingRun(lo.entries) == 1 && TrailingRun(hi.entries) == 1
    requires t.accountCounter == s.accountCounter
    requires t.transactionCounter == s.transactionCounter + TrailingRun(lo.entries) + TrailingRun(hi.entries)
    requires t.accounts
             == s.accounts[lo.number.value := Stamped(s, lo)]
                          [hi.number.value := Restamped(s, hi, TrailingRun(lo.entries))]
    ensures t == Store(s.accounts[lo.number.value := Stamped(s, lo)]
                                 [hi.number.value := hi.(entries := AssignIds(hi.entries, s.transactionCounter + 1))],
                       s.accountCounter, s.transactionCounter + 2)
  {
  }
}
